=== FILE: README.md ===
# VPS account manager: orchestration core in Dafny

This project models the account orchestrator of a small VPS management tool
written in Go. The orchestrator keeps a list of user records and drives
eight access backends for each account, always in one fixed order: SSH,
Xray, WebSocket, SSL, HTTP, Squid, UDP and Dropbear. It has three operations.

- **AddUser** hashes the password. It then provisions the eight backends in
  order. When a step fails, it runs a compensation written by hand for that
  step. When every step succeeds, it appends one record and saves the list.
- **RemoveUser** drops the first record with the given name. It then tears
  down all eight backends and saves, collecting every failure instead of
  stopping at the first one.
- **CheckExpiredUsers** collects the names whose expiry is strictly before
  now, then removes each of them.

The project also models how the Xray adapter edits the client lists of the
server configuration.

The world outside is passed in as parameters:

- the bcrypt result;
- each backend's provisioning and teardown outcome;
- the outcome of the save to disk;
- the current time.

Every operation is a pure function. It returns the new user list, the
external calls it made in order, and the status it returned.

Modules:

- `Outcomes` holds `Status`, `Result` and `Option`, which stand in for Go's
  error returns.
- `Backends` holds the eight backends, their order, the stored protocol
  names, the per-account domain, and each provisioning call's arguments.
- `Accounts` holds the `User` record, first-match lookup, and the reference
  filters (`WithoutNames`, `Unexpired`, `ExpiredNames`) the operations are
  proved against.
- `Subsequences` holds the "same relative order" relation, used for call
  order.
- `VpsManager` holds AddUser (with its compensation table as a parameter),
  cleanup, RemoveUser with its error list, and the expiry sweep.
- `AddUserFacts` gives AddUser's call traces for every failing step, the
  record it appends, and the round trip through RemoveUser.
- `ExpirySweep` covers RemoveUser and the sweep against the reference
  filters, the sweep's call sequence, their independence from backend
  answers, and idempotence.
- `Findings` holds two defects of the code as written, each with a
  corrected definition.
- `XrayClients` holds the inbound/client structure, the add and filter
  edits, their lemmas, and the adapter's load / write / restart sequence.

Where the code departs from what such an orchestrator would be expected to
do, the model follows the code:

- AddUser does not refuse a username that already has a record.
- A failed provisioning step is not compensated by undoing exactly the
  steps that succeeded, in reverse order. The code compensates in forward
  order. It tears down all eight backends when one of steps 5 to 8 fails. It
  skips WebSocket when SSL fails.
- A record does not carry the backends actually provisioned. The code
  stores a fixed eight-name list that is not in provisioning order.
- The sweep does not remove a record whose expiry equals now. It selects
  only records that now is strictly after (`now.After`, vps_manager.go:227).
- The sweep reports nothing to its caller: neither the names it attempted
  nor which removals failed. It prints each name and drops RemoveUser's
  error (vps_manager.go:232-235).
- A provisioning failure is returned as the backend's own error, without
  naming the backend that failed (vps_manager.go:76-122).
- `expireDays` is never checked to be non-negative (vps_manager.go:68 and
  125). A negative count gives a record that is already expired.

The duplicate check and the complete SSL compensation appear only in the
corrected definitions of `Findings`.

## Model

| member | source | states |
|---|---|---|
| Backends.OrderIsComplete | vps_manager.go:264-273 | the teardown order names every one of the eight backends exactly once |
| Backends.ProtocolNamesCoverBackends | vps_manager.go:130 | the stored protocol list is as long as the backend list, names every backend, and names nothing else |
| Backends.ProtocolNamesDistinct | vps_manager.go:130 | the stored protocol list has no repeats, yet is not in provisioning order ("ssl" is second) |
| Backends.Domain | vps_manager.go:87 | the virtual host is the username, then a dot, then the configured suffix |
| Backends.DomainInjective | vps_manager.go:87 | under one suffix, distinct usernames never share a virtual host |
| Backends.ProvisionArgs | vps_manager.go:76-120 | each provisioning call gets one to three of the username, the raw password and the domain, and nothing else; every backend but SSL gets the username first; the login backends get the password second; the virtual-host backends get the domain last |
| Backends.ArgumentsByBackend | vps_manager.go:76-120 | when the three inputs differ, the password reaches exactly SSH, HTTP, Squid, UDP and Dropbear, the domain exactly WebSocket, SSL and HTTP, and the username every backend but SSL |
| Accounts.FindFirst | vps_manager.go:140-147 | the lookup finds the first record with the name; it finds nothing exactly when no record has that name |
| Accounts.RemoveAt | vps_manager.go:143 | cutting out one record keeps every other record, in order |
| Accounts.Unexpired | vps_manager.go:227 | the reference filter: a record survives exactly when its expiry is not before now |
| Accounts.ExpiredNames | vps_manager.go:224-230 | a name is selected exactly when some record with that name has an expiry strictly before now |
| Accounts.ExpiredNamesAppend | vps_manager.go:226-230 | selection runs over the list front to back, so the names come out in list order |
| Accounts.ExpiryBoundaryKept | vps_manager.go:227 | a record whose expiry equals now is not selected and is kept |
| Accounts.RemoveFirstIsWithoutName | vps_manager.go:141-147 | with unique names, dropping the first match is the same as dropping every record with that name |
| Accounts.WithoutExpiredIsUnexpired | vps_manager.go:226-230 | with unique names, dropping every selected name leaves exactly the records still valid |
| VpsManager.Cleanup | vps_manager.go:264-273 | cleanup calls all eight teardowns in the fixed order, whether or not the backend was provisioned |
| VpsManager.FirstFailure | vps_manager.go:75-123 | provisioning stops at the first failing step: it finds no failure exactly when every step succeeds, and otherwise a step that failed with every earlier step succeeded |
| VpsManager.AsWritten | vps_manager.go:76-123 | the compensation for a failed step tears down in provisioning order, each backend once; of the steps that succeeded all are undone except WebSocket after an SSL failure; failures of the first four steps undo only earlier steps, failures of the last four undo all eight backends |
| VpsManager.NewUser | vps_manager.go:125-131 | the new record carries the name, the hash output, an expiry exactly the given number of days after now (not before now exactly when the count is non-negative), and the fixed protocol list of vps_manager.go:130, one name per backend |
| VpsManager.AddUserWith | vps_manager.go:68-136 | a hash failure returns before any backend call and keeps the list. A failed step keeps the list and never saves. Full success appends one new record, makes the eight provisioning calls and then one save of the new list, and returns the save's outcome; the record stays even when the save fails |
| VpsManager.CollectedAreFailures | vps_manager.go:153-192 | every collected entry is a teardown that failed, with that teardown's own error |
| VpsManager.CompensationCalls | vps_manager.go:80-123 | a failed add's calls, the attempts and then the compensation, contain no save and tear down only the new username |
| VpsManager.AddUserWithKeepsContract | vps_manager.go:68-136 | whatever the compensation table, a hash failure calls nothing; the list changes exactly on full success and then only by the new record at the end; a teardown only follows a failed step and only for the new name; a save only follows a success, once, as the last call |
| VpsManager.AddUser | vps_manager.go:68-136 | AddUser as written keeps that contract: the list changes exactly when every step succeeds, compensating teardowns touch only the new name and leave the list as it was, and the list is saved only after a success, as the last call |
| VpsManager.FailuresAreCollected | vps_manager.go:153-192 | no failed teardown is missing from the collected errors |
| VpsManager.CollectedInOrder | vps_manager.go:153-192 | the collected teardown errors come in the order the teardowns are called |
| VpsManager.FailuresAreCauses | vps_manager.go:153-197 | each entry of RemoveUser's error list is a failed teardown or the failed save, with its own cause |
| VpsManager.FailuresAreComplete | vps_manager.go:153-202 | every failed teardown and a failed save are in the error list, and the list is empty exactly when all nine steps succeed |
| VpsManager.FailuresInCallOrder | vps_manager.go:153-197 | the error list follows call order: the eight teardowns in order, then the save |
| VpsManager.RemovalFailures | vps_manager.go:153-204 | the error list reports exactly the failing steps among the eight teardowns and the save, each with its cause, in call order; it is empty exactly when nothing failed |
| VpsManager.RemoveUser | vps_manager.go:138-207 | an absent name gives "user not found" with no call and the list unchanged. Otherwise the first match is dropped, all eight teardowns and then the save are called whatever fails, and an error is returned exactly when one of those nine steps failed, listing every failure |
| VpsManager.RemoveEach | vps_manager.go:232-235 | RemoveUser is called once per name, in order, whatever it returns; each call removes at most one record |
| VpsManager.CheckExpiredUsers | vps_manager.go:222-236 | the sweep attempts exactly the names with a record that expired strictly before now |
| AddUserFacts.FirstFailureTrace | vps_manager.go:75-123 | when step k is the first to fail, the calls are the provisioning of steps 0..k in order and then that step's compensation; step k's own error is returned and the list is unchanged |
| AddUserFacts.NothingAfterFailure | vps_manager.go:75-123 | no provisioning call is made for a step after the failing one |
| AddUserFacts.CompensationOutcomesIgnored | vps_manager.go:80-123 | what the compensating teardowns answer never changes AddUser's outcome: their errors are dropped |
| AddUserFacts.SshFailureUndoesNothing | vps_manager.go:76-78 | an SSH failure makes one call, the SSH provisioning with username and password, and undoes nothing |
| AddUserFacts.XrayFailureUndoesSsh | vps_manager.go:80-84 | an Xray failure undoes only the SSH account |
| AddUserFacts.WebSocketFailureUndoesSshXray | vps_manager.go:86-92 | a WebSocket failure removes SSH then Xray, in provisioning order |
| AddUserFacts.SslFailureUndoesSshXray | vps_manager.go:94-99 | an SSL failure removes SSH then Xray; the certificate is requested for the derived domain |
| AddUserFacts.LateFailureRunsCleanup | vps_manager.go:101-123 | a failure of HTTP, Squid, UDP or Dropbear runs cleanup, all eight teardowns in the fixed order |
| AddUserFacts.SuccessAppendsOneRecord | vps_manager.go:125-133 | success appends exactly one record at the end with the hash output as password, expiry now plus the given days, and the fixed protocol list; earlier records are untouched |
| AddUserFacts.RemoveAfterAdd | vps_manager.go:133-147 | removing a user just added under a fresh name restores the list as it was |
| ExpirySweep.RemoveUserDropsName | vps_manager.go:141-147 | with unique names, RemoveUser drops exactly the records with that name, and names stay unique |
| ExpirySweep.RemoveUserIgnoresOutcomes | vps_manager.go:152-206 | the list RemoveUser leaves and the calls it makes do not depend on what the backends or the save answer |
| ExpirySweep.RemoveEachDropsNames | vps_manager.go:232-235 | with unique names, removing names one by one drops exactly the records with one of those names |
| ExpirySweep.SweepIgnoresOutcomes | vps_manager.go:232-235 | the sweep's effect on the list and its calls do not depend on any removal's outcome: errors are ignored |
| ExpirySweep.ExpiredInListOrder | vps_manager.go:226-230 | the collected names are a subsequence of the list's names |
| ExpirySweep.SweepKeepsUnexpired | vps_manager.go:222-236 | with unique names, the sweep leaves exactly the records whose expiry is not before now, and names stay unique |
| ExpirySweep.NothingExpiredAfterSweep | vps_manager.go:227 | nothing that survives the filter is selected again at the same instant |
| ExpirySweep.SweepTwiceIsNoop | vps_manager.go:222-236 | with unique names, a second sweep at the same instant attempts nothing, calls nothing and changes nothing |
| ExpirySweep.ExpiredNamesDistinct | vps_manager.go:224-230 | with unique names in the list, no name is selected twice |
| ExpirySweep.RemoveEachTrace | vps_manager.go:232-235 | removing distinct names that are all present makes, for each name in turn, the eight cleanup teardowns and then one save of the list with the names removed so far |
| ExpirySweep.SweepCallTrace | vps_manager.go:222-236 | with unique names, the sweep makes nine calls per expired name in list order: cleanup's eight teardowns for that name, then a save of the list without every expired name up to and including it |
| ExpirySweep.NewRecordSweptOnlyIfBackdated | vps_manager.go:125-131 | a new record is collected by a sweep at the instant of its creation exactly when it was created with a negative day count |
| Findings.AddUserAdmitsDuplicate | vps_manager.go:125-133 | adding a registered name with every step succeeding leaves two records with that name |
| Findings.SweepDropsLiveDuplicate | vps_manager.go:222-236 | with a live and an expired record of one name, the sweep deletes the live one and keeps the expired one |
| Findings.SecondSweepRepeats | vps_manager.go:222-236 | with the same duplicate list, a second sweep at the same instant attempts "alice" again and empties the list, so the sweep is not idempotent without unique names |
| Findings.AddUserUnique | vps_manager.go:68-136 | corrected add: a registered name is refused with DuplicateIdentity and no call; names stay unique; success means the name is new and now present |
| Findings.SecondAddIsRefused | vps_manager.go:68-136 | with the corrected add, adding the same name twice refuses the second and keeps one record |
| Findings.SslFailureLeavesWebSocket | vps_manager.go:94-99 | as written, an SSL failure leaves the WebSocket configuration in place: it was provisioned and is never torn down |
| Findings.AsWrittenMissesWebSocket | vps_manager.go:94-99 | the as-written table differs from the repaired one only at SSL, where it omits the earlier WebSocket step |
| Findings.Repaired | vps_manager.go:94-99 | corrected compensation table: every step before the failing one is in its teardown list |
| Findings.RepairedUndoesEverything | vps_manager.go:75-123 | with the corrected table, a failure at step k tears down every backend provisioned before it |
| XrayClients.WithoutEmail | protocols/xray.go:141-145 | a client is kept exactly when it was there and its email differs |
| XrayClients.WithoutEmailInOrder | protocols/xray.go:141-145 | the kept clients stay in their original order |
| XrayClients.WithoutEmailAppend | protocols/xray.go:141-145 | filtering by email distributes over concatenation |
| XrayClients.WithoutAbsentEmail | protocols/xray.go:141-145 | a list with no client of that email is unchanged |
| XrayClients.WithoutEmailIdempotent | protocols/xray.go:134-149 | filtering twice by the same email is filtering once |
| XrayClients.AddToInbounds | protocols/xray.go:98-111 | every vmess or vless inbound gets the client appended at the end; inbound count, order, ports and protocols are kept, and other inbounds are untouched |
| XrayClients.RemoveFromInbounds | protocols/xray.go:134-149 | every vmess or vless inbound has its clients filtered by email; inbound count, order, ports and protocols are kept, and other inbounds are untouched |
| XrayClients.AddClient | protocols/xray.go:92-111 | each vmess or vless inbound gets exactly one new client with the single generated id and the username as email, after its existing clients |
| XrayClients.RemoveClients | protocols/xray.go:134-149 | each vmess or vless inbound loses exactly its clients with that email and keeps the others in order, repeats included; the shape of the configuration is kept |
| XrayClients.RemovalKeepsOrder | protocols/xray.go:141-147 | the clients that remain keep their original order |
| XrayClients.RemoveClientsIdempotent | protocols/xray.go:134-149 | removing a user twice is removing it once |
| XrayClients.RemoveAfterAddIsRemove | protocols/xray.go:98-149 | removing an email right after adding it equals removing it from the original configuration |
| XrayClients.RemoveAbsentIsNoop | protocols/xray.go:134-149 | removing an email no vmess or vless client has changes nothing |
| XrayClients.RemoveAfterAdd | protocols/xray.go:98-149 | if no vmess or vless client has the email, adding and then removing it gives back the original configuration |
| XrayClients.AddUser | protocols/xray.go:85-124 | a load or uuid failure returns before anything is written; a write failure returns before the restart; a restart failure is an error though the new file is written; otherwise the new configuration is written and the service restarted |
| XrayClients.RemoveUser | protocols/xray.go:127-152 | a load failure writes nothing; otherwise the filtered configuration is written and the result is the write's outcome; the service is never restarted |
| XrayClients.RemoveUserUndoesAddUser | protocols/xray.go:85-152 | after a successful add of a fresh name, a remove that reads the written file writes back the original configuration |

## Left out

- I/O is not modelled. This covers JSON encoding and decoding, `saveToFile`'s file write, `loadFromFile`, and config loading (config/config.go). The save and the Xray file read, write and restart are each one outcome taken from a parameter.
- Backend adapter internals are not modelled: shell commands, nginx and UDP templates, certificate generation, htpasswd. Each backend's add and remove is one call whose outcome comes from the `Env` parameter. The Xray adapter is modelled separately in `XrayClients` and is not wired into that parameter.
- Outcome parameters are fixed per operation. A backend's answer depends only on which backend it is, not on earlier calls. In the sweep, the n-th removal gets its own answers `envs(n)`.
- bcrypt is an oracle that gives a digest or an error. The digest is not tied to the password.
- Time is modelled as integer seconds. `AddDate(0, 0, n)` is taken as n times 86400 seconds; calendar normalisation and daylight-saving shifts are not modelled. Go's monotonic clock reading is not modelled either.
- Error values are structured data, not formatted strings. The order and content of RemoveUser's error list are kept; the text ("SSH: …", "errors removing user: …") is not.
- Fields of the Xray configuration file outside `inbounds[].port/protocol/settings.clients[].id/email` are not modelled. The adapter decodes into that narrow struct and writes back only those fields, so the real file also loses everything else; the model cannot show this.
- The model does not tell a nil client list from an empty one. In JSON, RemoveUser writes `[]` where the file may have had `null`.
- The Go slice update `append(vm.Users[:i], vm.Users[i+1:]...)` reuses the backing array in place. No other reference observes it in this program, so the model builds a fresh sequence.
- Logging (`logAction`), `ListUsers`, `NewVPSManager` and the interactive `main` loop are not modelled: they are output and wiring only.
- VpsManager.RemoveEach: its own contract gives the names attempted and length bounds only. The resulting list and the call sequence are stated in `ExpirySweep` (RemoveEachDropsNames, RemoveEachTrace) for lists with unique names, because with duplicate names the first-match removal does not follow any name filter (see Findings).
- VpsManager.CheckExpiredUsers: its exact resulting list and call sequence (SweepKeepsUnexpired, SweepCallTrace) are stated only for lists with unique names, for the same reason.

## Findings

| source | as written | input that shows it | evidently intended | confidence | as-written member | corrected member |
|---|---|---|---|---|---|---|
| vps_manager.go:68-136 | AddUser appends a record without looking for an existing username. RemoveUser then drops only the first match, so the sweep, which selects names, can delete the wrong record | the list [alice expiring at 100, alice expiring at 0] swept at 50: "alice" is selected, and the live record is deleted while the expired one stays. With the real SSH backend a second add of a live name normally fails at step 1 (`useradd`, protocols/ssh.go:21, refuses an existing name), and one that gets past it fails at step 8, where Dropbear runs `useradd` again (protocols/dropbear.go:23) and cleanup follows; such a list comes from a file loaded with duplicates (vps_manager.go:246-256). The model reaches it through AddUser only because its backends answer independently | refuse an existing username so that names stay unique, and the sweep removes exactly the expired records | medium, not executed | Findings.SweepDropsLiveDuplicate | Findings.AddUserUnique |
| vps_manager.go:94-99 | when certificate generation fails, only SSH and Xray are removed | SSH, Xray and WebSocket succeed and SSL fails: the WebSocket provisioning call is made, and no WebSocket teardown follows | also remove the WebSocket configuration written one step earlier, as every other step's compensation covers all earlier steps | medium, not executed | Findings.SslFailureLeavesWebSocket | Findings.Repaired |

=== FILE: accounts.dfy ===
/** The in-memory account list the manager keeps (vps_manager.go:16-24) and
    the list operations its add, remove and expiry sweep are built from. */
module Accounts {
  import opened Outcomes

  /** An instant, in seconds. */
  type Time = int

  /** Length of one day added by `AddDate(0, 0, n)`, taken as exact. */
  const DaySeconds: int := 86400

  /** One account record. `password` holds whatever the hash produced. */
  datatype User = User(username: string, password: string, expireDate: Time, protocols: seq<string>)

  /** The usernames of `users`, in list order. */
  function NamesOf(users: seq<User>): (r: seq<string>)
    ensures |r| == |users|
    ensures forall i :: 0 <= i < |users| ==> r[i] == users[i].username
  {
    seq(|users|, i requires 0 <= i < |users| => users[i].username)
  }

  /** The names occurring in `names`. */
  function NameSet(names: seq<string>): set<string>
  {
    set n | n in names
  }

  /** No two records share a username. The manager itself never checks this. */
  ghost predicate UniqueNames(users: seq<User>)
  {
    forall i, j :: 0 <= i < j < |users| ==> users[i].username != users[j].username
  }

  /** Index of the first record named `name` at or after position `from`. */
  function FindFrom(users: seq<User>, name: string, from: nat): (r: Option<nat>)
    requires from <= |users|
    decreases |users| - from
    ensures r.Some? ==> from <= r.value < |users| && users[r.value].username == name
    ensures r.Some? ==> forall j :: from <= j < r.value ==> users[j].username != name
    ensures r.None? ==> forall j :: from <= j < |users| ==> users[j].username != name
  {
    if from == |users| then None
    else if users[from].username == name then Some(from)
    else FindFrom(users, name, from + 1)
  }

  /** Index of the first record named `name`, scanning from the front. */
  function FindFirst(users: seq<User>, name: string): (r: Option<nat>)
    ensures r.Some? ==> r.value < |users| && users[r.value].username == name
    ensures r.Some? ==> forall j :: 0 <= j < r.value ==> users[j].username != name
    ensures r.None? <==> name !in NamesOf(users)
  {
    FindFrom(users, name, 0)
  }

  /** A record appended under a fresh name is the first with that name. */
  lemma FindAppended(users: seq<User>, u: User)
    requires u.username !in NamesOf(users)
    ensures FindFirst(users + [u], u.username) == Some(|users|)
  {
    var all := users + [u];
    assert NamesOf(all)[|users|] == u.username;
    forall j | 0 <= j < |users|
      ensures all[j].username != u.username
    {
      assert NamesOf(users)[j] == all[j].username;
    }
  }

  /** `users` with the record at `i` cut out and the rest kept in order. */
  function RemoveAt(users: seq<User>, i: nat): (r: seq<User>)
    requires i < |users|
    ensures |r| == |users| - 1
    ensures forall j :: 0 <= j < i ==> r[j] == users[j]
    ensures forall j :: i <= j < |r| ==> r[j] == users[j + 1]
  {
    users[..i] + users[i + 1..]
  }

  /** The records of `users` whose name is not in `names`, in order. */
  function WithoutNames(users: seq<User>, names: set<string>): (r: seq<User>)
    ensures |r| <= |users|
    ensures forall u :: u in r <==> u in users && u.username !in names
  {
    if users == [] then []
    else (if users[0].username in names then [] else [users[0]]) + WithoutNames(users[1..], names)
  }

  /** The records still valid at `now`: those whose expiry is not before `now`. */
  function Unexpired(users: seq<User>, now: Time): (r: seq<User>)
    ensures |r| <= |users|
    ensures forall u :: u in r <==> u in users && u.expireDate >= now
  {
    if users == [] then []
    else (if now > users[0].expireDate then [] else [users[0]]) + Unexpired(users[1..], now)
  }

  /** The names of the records `now` is strictly after, in list order: the
      selection loop of the expiry sweep. */
  function ExpiredNames(users: seq<User>, now: Time): (r: seq<string>)
    ensures |r| <= |users|
    ensures forall n :: n in r <==> exists u :: u in users && u.username == n && now > u.expireDate
  {
    if users == [] then []
    else
      assert forall u :: u in users <==> u == users[0] || u in users[1..];
      (if now > users[0].expireDate then [users[0].username] else []) + ExpiredNames(users[1..], now)
  }

  /** Selection distributes over concatenation, so the names come out in
      list order. */
  lemma {:induction false} ExpiredNamesAppend(a: seq<User>, b: seq<User>, now: Time)
    ensures ExpiredNames(a + b, now) == ExpiredNames(a, now) + ExpiredNames(b, now)
    decreases |a|
  {
    if a == [] {
      assert a + b == b;
    } else {
      assert (a + b)[1..] == a[1..] + b;
      ExpiredNamesAppend(a[1..], b, now);
    }
  }

  /** A record whose expiry equals `now` is kept by the sweep. */
  lemma ExpiryBoundaryKept(u: User, now: Time)
    requires u.expireDate == now
    ensures ExpiredNames([u], now) == []
    ensures Unexpired([u], now) == [u]
  {
  }

  /** Dropping the names of `a` and then those of `b` drops the names of both. */
  lemma {:induction false} WithoutNamesTwice(users: seq<User>, a: set<string>, b: set<string>)
    ensures WithoutNames(WithoutNames(users, a), b) == WithoutNames(users, a + b)
    decreases |users|
  {
    if users != [] {
      WithoutNamesTwice(users[1..], a, b);
      var head := if users[0].username in a then [] else [users[0]];
      WithoutNamesAppend(head, WithoutNames(users[1..], a), b);
      assert WithoutNames(users, a) == head + WithoutNames(users[1..], a);
    }
  }

  /** Dropping names distributes over concatenation. */
  lemma {:induction false} WithoutNamesAppend(x: seq<User>, y: seq<User>, names: set<string>)
    ensures WithoutNames(x + y, names) == WithoutNames(x, names) + WithoutNames(y, names)
    decreases |x|
  {
    if x == [] {
      assert x + y == y;
    } else {
      assert (x + y)[1..] == x[1..] + y;
      WithoutNamesAppend(x[1..], y, names);
    }
  }

  /** Two name sets that agree on every name in the list drop the same records. */
  lemma {:induction false} WithoutNamesAgree(users: seq<User>, a: set<string>, b: set<string>)
    requires forall u :: u in users ==> (u.username in a <==> u.username in b)
    ensures WithoutNames(users, a) == WithoutNames(users, b)
    decreases |users|
  {
    if users != [] {
      assert users[0] in users;
      assert forall u :: u in users[1..] ==> u in users;
      WithoutNamesAgree(users[1..], a, b);
    }
  }

  /** With unique names, cutting out the first record named `n` is the same
      as dropping every record named `n`. */
  lemma RemoveFirstIsWithoutName(users: seq<User>, n: string, i: nat)
    requires UniqueNames(users)
    requires FindFirst(users, n) == Some(i)
    ensures RemoveAt(users, i) == WithoutNames(users, {n})
  {
    var pre, post := users[..i], users[i + 1..];
    assert users == pre + [users[i]] + post;
    forall k | 0 <= k < |post|
      ensures post[k].username != n
    {
      assert post[k] == users[i + 1 + k];
    }
    DropOnlyNamed(pre, users[i], post);
  }

  /** Dropping the name of `x` from `pre + [x] + post`, when neither side
      carries it, leaves `pre + post`. */
  lemma DropOnlyNamed(pre: seq<User>, x: User, post: seq<User>)
    requires forall k :: 0 <= k < |pre| ==> pre[k].username != x.username
    requires forall k :: 0 <= k < |post| ==> post[k].username != x.username
    ensures WithoutNames(pre + [x] + post, {x.username}) == pre + post
  {
    var n := x.username;
    WithoutNamesAppend(pre + [x], post, {n});
    DropLastNamed(pre, x);
    NoneNamedIsUnchanged(post, n);
  }

  /** Dropping the name of `x` from `pre + [x]`, when `pre` does not carry
      it, leaves `pre`. */
  lemma DropLastNamed(pre: seq<User>, x: User)
    requires forall k :: 0 <= k < |pre| ==> pre[k].username != x.username
    ensures WithoutNames(pre + [x], {x.username}) == pre
  {
    var names := {x.username};
    calc {
      WithoutNames(pre + [x], names);
      { WithoutNamesAppend(pre, [x], names); }
      WithoutNames(pre, names) + WithoutNames([x], names);
      { assert [x][1..] == []; }
      WithoutNames(pre, names) + [];
      { NoneNamedIsUnchanged(pre, x.username); }
      pre + [];
    }
    assert pre + [] == pre;
  }

  /** Dropping a name no record carries changes nothing. */
  lemma {:induction false} NoneNamedIsUnchanged(users: seq<User>, n: string)
    requires forall k :: 0 <= k < |users| ==> users[k].username != n
    ensures WithoutNames(users, {n}) == users
    decreases |users|
  {
    if users != [] {
      NoneNamedIsUnchanged(users[1..], n);
    }
  }

  /** Dropping no names changes nothing. */
  lemma {:induction false} WithoutNoNames(users: seq<User>)
    ensures WithoutNames(users, {}) == users
    decreases |users|
  {
    if users != [] {
      WithoutNoNames(users[1..]);
    }
  }

  /** Dropping records keeps names unique. */
  lemma {:induction false} WithoutNamesKeepsUnique(users: seq<User>, names: set<string>)
    requires UniqueNames(users)
    ensures UniqueNames(WithoutNames(users, names))
    decreases |users|
  {
    if users != [] {
      WithoutNamesKeepsUnique(users[1..], names);
      var rest := WithoutNames(users[1..], names);
      forall u | u in rest
        ensures u.username != users[0].username
      {
        assert u in users[1..];
      }
    }
  }

  /** With unique names, dropping every expired name leaves exactly the
      records still valid. */
  lemma {:induction false} WithoutExpiredIsUnexpired(users: seq<User>, now: Time)
    requires UniqueNames(users)
    ensures WithoutNames(users, NameSet(ExpiredNames(users, now))) == Unexpired(users, now)
    decreases |users|
  {
    if users != [] {
      var tail := users[1..];
      var all := NameSet(ExpiredNames(users, now));
      var rest := NameSet(ExpiredNames(tail, now));
      assert UniqueNames(tail);
      forall u | u in tail
        ensures u.username in all <==> u.username in rest
      {
        assert u.username != users[0].username;
      }
      WithoutNamesAgree(tail, all, rest);
      WithoutExpiredIsUnexpired(tail, now);
      assert users[0].username in all <==> now > users[0].expireDate;
    }
  }
}

=== FILE: add_user_facts.dfy ===
/** What AddUser does on each path: which provisioning calls it makes, which
    compensation runs when a step fails, and the record it appends. */
module AddUserFacts {
  import opened Outcomes
  import opened Backends
  import opened Accounts
  import opened VpsManager

  /** Step `k` is the first provisioning step that fails. */
  predicate FirstFailureAt(provision: Backend -> Status<string>, k: nat)
  {
    && k < |Order|
    && provision(Order[k]).Err?
    && (forall j :: 0 <= j < k ==> provision(Order[j]).Ok?)
  }

  /** When step `k` is the first to fail, AddUser has made the provisioning
      calls of steps 0..k in order, then the compensation for step `k`, and
      returns step `k`'s own error with the list untouched. */
  ghost predicate FailedAt(r: Run, undo: Policy, m: Manager, username: string, password: string,
                           env: Env, k: nat)
    requires FirstFailureAt(env.provision, k)
  {
    && r.users == m.users
    && r.calls == ProvisionCalls(Order, username, password, Domain(username, m.domain))[..k + 1]
                  + Teardowns(undo(Order[k]), username)
    && r.status == Err(BackendError(env.provision(Order[k]).error))
  }

  lemma FirstFailureTrace(undo: Policy, m: Manager, username: string, password: string,
                          expireDays: int, now: Time, env: Env, k: nat)
    requires env.hash.Hashed?
    requires FirstFailureAt(env.provision, k)
    ensures FailedAt(AddUserWith(undo, m, username, password, expireDays, now, env),
                     undo, m, username, password, env, k)
  {
    assert FirstFailure(Order, 0, env.provision) == Some(k);
  }

  /** No provisioning step after the failing one is attempted. */
  lemma NothingAfterFailure(undo: Policy, m: Manager, username: string, password: string,
                            expireDays: int, now: Time, env: Env, k: nat)
    requires env.hash.Hashed?
    requires FirstFailureAt(env.provision, k)
    ensures forall c :: (c in AddUserWith(undo, m, username, password, expireDays, now, env).calls
                         && c.Provision?) ==> Rank(c.backend) <= k
  {
    FirstFailureTrace(undo, m, username, password, expireDays, now, env, k);
    var r := AddUserWith(undo, m, username, password, expireDays, now, env);
    var attempts := ProvisionCalls(Order, username, password, Domain(username, m.domain))[..k + 1];
    var undone := Teardowns(undo(Order[k]), username);
    forall c | c in r.calls && c.Provision?
      ensures Rank(c.backend) <= k
    {
      var i :| 0 <= i < |r.calls| && r.calls[i] == c;
      if i < |attempts| {
        assert c == attempts[i];
        RankOfOrder(i);
      }
    }
  }

  /** What the compensating teardowns answer never changes AddUser's result:
      their errors are dropped, and step k's error is what is returned. */
  lemma CompensationOutcomesIgnored(undo: Policy, m: Manager, username: string, password: string,
                                    expireDays: int, now: Time, env: Env,
                                    deprovision: Backend -> Status<string>)
    ensures AddUserWith(undo, m, username, password, expireDays, now, env.(deprovision := deprovision))
            == AddUserWith(undo, m, username, password, expireDays, now, env)
  {
  }

  // The compensation for each failing step, as complete call traces of the
  // source's AddUser. `d` is the account's virtual host.

  /** The provisioning calls of the first four steps, spelled out. */
  lemma EarlyProvisionCalls(username: string, password: string, d: string)
    ensures var all := ProvisionCalls(Order, username, password, d);
      && all[..1] == [Provision(SSH, [username, password])]
      && all[..2] == [Provision(SSH, [username, password]), Provision(Xray, [username])]
      && all[..3] == [Provision(SSH, [username, password]), Provision(Xray, [username]),
                      Provision(WebSocket, [username, d])]
      && all[..4] == [Provision(SSH, [username, password]), Provision(Xray, [username]),
                      Provision(WebSocket, [username, d]), Provision(SSL, [d])]
  {
    var all := ProvisionCalls(Order, username, password, d);
    assert all[..2] == all[..1] + [all[1]];
    assert all[..3] == all[..2] + [all[2]];
    assert all[..4] == all[..3] + [all[3]];
  }

  /** The compensation calls of the first four steps, spelled out. */
  lemma EarlyCompensationCalls(username: string)
    ensures Teardowns(AsWritten(Order[0]), username) == []
    ensures Teardowns(AsWritten(Order[1]), username) == [Deprovision(SSH, username)]
    ensures Teardowns(AsWritten(Order[2]), username) == [Deprovision(SSH, username), Deprovision(Xray, username)]
    ensures Teardowns(AsWritten(Order[3]), username) == [Deprovision(SSH, username), Deprovision(Xray, username)]
  {
    assert AsWritten(Order[1]) == [SSH];
    assert AsWritten(Order[2]) == AsWritten(Order[3]) == [SSH, Xray];
  }

  /** When step `k` is the first to fail, AddUser's calls are the given
      attempts followed by the given compensation. */
  lemma TraceOf(m: Manager, username: string, password: string, expireDays: int, now: Time,
                env: Env, k: nat, attempts: seq<Call>, undone: seq<Call>)
    requires env.hash.Hashed? && FirstFailureAt(env.provision, k)
    requires attempts == ProvisionCalls(Order, username, password, Domain(username, m.domain))[..k + 1]
    requires undone == Teardowns(AsWritten(Order[k]), username)
    ensures AddUser(m, username, password, expireDays, now, env).calls == attempts + undone
  {
    FirstFailureTrace(AsWritten, m, username, password, expireDays, now, env, k);
  }

  /** SSH fails: nothing is undone. */
  lemma SshFailureUndoesNothing(m: Manager, username: string, password: string,
                                expireDays: int, now: Time, env: Env)
    requires env.hash.Hashed? && env.provision(SSH).Err?
    ensures AddUser(m, username, password, expireDays, now, env).calls
            == [Provision(SSH, [username, password])]
  {
    assert FirstFailureAt(env.provision, 0);
    EarlyProvisionCalls(username, password, Domain(username, m.domain));
    EarlyCompensationCalls(username);
    TraceOf(m, username, password, expireDays, now, env, 0,
            [Provision(SSH, [username, password])], []);
  }

  /** Xray fails: only the SSH account is removed. */
  lemma XrayFailureUndoesSsh(m: Manager, username: string, password: string,
                             expireDays: int, now: Time, env: Env)
    requires env.hash.Hashed? && env.provision(SSH).Ok? && env.provision(Xray).Err?
    ensures AddUser(m, username, password, expireDays, now, env).calls
            == [Provision(SSH, [username, password]), Provision(Xray, [username]),
                Deprovision(SSH, username)]
  {
    assert FirstFailureAt(env.provision, 1);
    EarlyProvisionCalls(username, password, Domain(username, m.domain));
    EarlyCompensationCalls(username);
    TraceOf(m, username, password, expireDays, now, env, 1,
            [Provision(SSH, [username, password]), Provision(Xray, [username])],
            [Deprovision(SSH, username)]);
  }

  /** WebSocket fails: SSH then Xray are removed, in provisioning order. */
  lemma WebSocketFailureUndoesSshXray(m: Manager, username: string, password: string,
                                      expireDays: int, now: Time, env: Env)
    requires env.hash.Hashed? && env.provision(SSH).Ok? && env.provision(Xray).Ok?
    requires env.provision(WebSocket).Err?
    ensures var d := Domain(username, m.domain);
      AddUser(m, username, password, expireDays, now, env).calls
        == [Provision(SSH, [username, password]), Provision(Xray, [username]),
            Provision(WebSocket, [username, d]),
            Deprovision(SSH, username), Deprovision(Xray, username)]
  {
    var d := Domain(username, m.domain);
    assert FirstFailureAt(env.provision, 2);
    EarlyProvisionCalls(username, password, d);
    EarlyCompensationCalls(username);
    TraceOf(m, username, password, expireDays, now, env, 2,
            [Provision(SSH, [username, password]), Provision(Xray, [username]),
             Provision(WebSocket, [username, d])],
            [Deprovision(SSH, username), Deprovision(Xray, username)]);
  }

  /** SSL fails: SSH then Xray are removed, and the WebSocket configuration
      written one step earlier is not. */
  lemma SslFailureUndoesSshXray(m: Manager, username: string, password: string,
                                expireDays: int, now: Time, env: Env)
    requires env.hash.Hashed? && env.provision(SSH).Ok? && env.provision(Xray).Ok?
    requires env.provision(WebSocket).Ok? && env.provision(SSL).Err?
    ensures var d := Domain(username, m.domain);
      AddUser(m, username, password, expireDays, now, env).calls
        == [Provision(SSH, [username, password]), Provision(Xray, [username]),
            Provision(WebSocket, [username, d]), Provision(SSL, [d]),
            Deprovision(SSH, username), Deprovision(Xray, username)]
  {
    var d := Domain(username, m.domain);
    assert FirstFailureAt(env.provision, 3);
    EarlyProvisionCalls(username, password, d);
    EarlyCompensationCalls(username);
    TraceOf(m, username, password, expireDays, now, env, 3,
            [Provision(SSH, [username, password]), Provision(Xray, [username]),
             Provision(WebSocket, [username, d]), Provision(SSL, [d])],
            [Deprovision(SSH, username), Deprovision(Xray, username)]);
  }

  /** HTTP, Squid, UDP or Dropbear fails: cleanup tears down all eight
      backends in the fixed order, including those never provisioned. */
  lemma LateFailureRunsCleanup(m: Manager, username: string, password: string,
                               expireDays: int, now: Time, env: Env, k: nat)
    requires env.hash.Hashed?
    requires 4 <= k && FirstFailureAt(env.provision, k)
    ensures AddUser(m, username, password, expireDays, now, env).calls
            == ProvisionCalls(Order, username, password, Domain(username, m.domain))[..k + 1]
               + Cleanup(username)
  {
    FirstFailureTrace(AsWritten, m, username, password, expireDays, now, env, k);
    assert AsWritten(Order[k]) == Order by {
      RankOfOrder(k);
    }
  }

  /** The record a successful AddUser appends: one record at the end, with
      the digest (not the password), the expiry `expireDays` days after
      `now`, and the fixed protocol list; earlier records are unchanged. */
  lemma SuccessAppendsOneRecord(undo: Policy, m: Manager, username: string, password: string,
                                expireDays: int, now: Time, env: Env)
    requires env.hash.Hashed?
    requires forall j :: 0 <= j < |Order| ==> env.provision(Order[j]).Ok?
    ensures var r := AddUserWith(undo, m, username, password, expireDays, now, env);
      && |r.users| == |m.users| + 1
      && r.users[..|m.users|] == m.users
      && r.users[|m.users|].username == username
      && r.users[|m.users|].password == env.hash.digest
      && r.users[|m.users|].expireDate == now + expireDays * DaySeconds
      && r.users[|m.users|].protocols == ProtocolNames
  {
    EveryStepIsEveryBackend(env.provision);
    var r := AddUserWith(undo, m, username, password, expireDays, now, env);
    assert r.users[..|m.users|] == m.users;
  }

  /** Removing a user just added under a fresh name gives back the list as
      it was before the add. */
  lemma RemoveAfterAdd(m: Manager, username: string, password: string,
                       expireDays: int, now: Time, env: Env, env2: Env)
    requires username !in NamesOf(m.users)
    requires env.hash.Hashed? && AllProvisioned(env)
    ensures var added := AddUser(m, username, password, expireDays, now, env);
      RemoveUser(m.(users := added.users), username, env2).users == m.users
  {
    var added := AddUser(m, username, password, expireDays, now, env);
    var u := NewUser(username, env.hash.digest, expireDays, now);
    assert added.users == m.users + [u];
    FindAppended(m.users, u);
    assert RemoveAt(added.users, |m.users|) == m.users;
  }
}

=== FILE: backends.dfy ===
/** The eight access backends the manager provisions, the fixed order it
    drives them in, and the arguments each provisioning call receives. */
module Backends {

  /** One manager per access protocol (vps_manager.go:23-35). */
  datatype Backend = SSH | Xray | WebSocket | SSL | HTTP | Squid | UDP | Dropbear

  /** The order in which AddUser provisions and RemoveUser and cleanup tear down. */
  const Order: seq<Backend> := [SSH, Xray, WebSocket, SSL, HTTP, Squid, UDP, Dropbear]

  /** Position of a backend in `Order`. */
  function Rank(b: Backend): (k: nat)
    ensures k < 8
  {
    match b
    case SSH => 0
    case Xray => 1
    case WebSocket => 2
    case SSL => 3
    case HTTP => 4
    case Squid => 5
    case UDP => 6
    case Dropbear => 7
  }

  /** `Rank` finds each backend's position in `Order`. */
  lemma OrderAtRank(b: Backend)
    ensures |Order| == 8 && Order[Rank(b)] == b
  {
  }

  /** The position of the backend at position `i` is `i`. */
  lemma RankOfOrder(i: nat)
    requires i < |Order|
    ensures Rank(Order[i]) == i
  {
    // One case per position; in each the literal `Order` is evaluated.
    match i
    case 0 => case 1 => case 2 => case 3 =>
    case 4 => case 5 => case 6 => case _ =>
  }

  /** The name a backend goes by in a user record's protocol list. */
  function Name(b: Backend): string
  {
    match b
    case SSH => "ssh"
    case Xray => "xray"
    case WebSocket => "websocket"
    case SSL => "ssl"
    case HTTP => "http"
    case Squid => "squid"
    case UDP => "udp"
    case Dropbear => "dropbear"
  }

  /** The protocol list stored in every new user record, in the order the
      record literal spells it. */
  const ProtocolNames: seq<string> :=
    ["ssh", "ssl", "websocket", "http", "squid", "xray", "udp", "dropbear"]

  /** The names of `bs`, position by position. */
  function Names(bs: seq<Backend>): (r: seq<string>)
    ensures |r| == |bs|
    ensures forall i :: 0 <= i < |bs| ==> r[i] == Name(bs[i])
  {
    seq(|bs|, i requires 0 <= i < |bs| => Name(bs[i]))
  }

  /** `Order` lists every backend exactly once. */
  lemma OrderIsComplete(b: Backend)
    ensures b in Order
    ensures forall i, j :: 0 <= i < j < |Order| ==> Order[i] != Order[j]
  {
  }

  /** The stored protocol list names each backend and nothing else. */
  lemma ProtocolNamesCoverBackends()
    ensures |ProtocolNames| == |Order|
    ensures forall b: Backend :: Name(b) in ProtocolNames
    ensures forall i :: 0 <= i < |ProtocolNames| ==> ProtocolNames[i] in Names(Order)
  {
    var ns := Names(Order);
    assert ns == ["ssh", "xray", "websocket", "ssl", "http", "squid", "udp", "dropbear"];
  }

  /** The stored protocol list has no repeats, but it is not in the order
      the backends are provisioned: "ssl" comes second. */
  lemma ProtocolNamesDistinct()
    ensures forall i, j :: 0 <= i < j < |ProtocolNames| ==> ProtocolNames[i] != ProtocolNames[j]
    ensures ProtocolNames != Names(Order)
  {
    assert Names(Order)[1] == "xray";
  }

  /** The per-account virtual host: the username, a dot, and the configured
      domain suffix. */
  function Domain(username: string, suffix: string): (d: string)
    ensures |d| == |username| + 1 + |suffix|
    ensures d[..|username|] == username && d[|username|] == '.'
    ensures d[|username| + 1..] == suffix
  {
    username + "." + suffix
  }

  /** Under one suffix, distinct usernames get distinct virtual hosts. */
  lemma DomainInjective(u1: string, u2: string, suffix: string)
    requires Domain(u1, suffix) == Domain(u2, suffix)
    ensures u1 == u2
  {
    var d := Domain(u1, suffix);
    assert |u1| == |u2|;
    assert u1 == d[..|u1|] == u2;
  }

  /** The arguments each backend's provisioning call receives: SSH, Squid,
      UDP and Dropbear get the username and raw password, Xray only the
      username, WebSocket the username and domain, SSL only the domain, and
      HTTP all three. */
  function ProvisionArgs(b: Backend, username: string, password: string, domain: string): (r: seq<string>)
    ensures 1 <= |r| <= 3
    // every argument is one of the three inputs; nothing else is passed
    ensures forall s :: s in r ==> s == username || s == password || s == domain
    // every backend but SSL is keyed by the username, passed first
    ensures b != SSL ==> r[0] == username
    // the login backends get the raw password, second
    ensures TakesPassword(b) ==> |r| >= 2 && r[1] == password
    // the backends serving the virtual host get the domain, last
    ensures TakesDomain(b) ==> r[|r| - 1] == domain
  {
    match b
    case SSH => [username, password]
    case Xray => [username]
    case WebSocket => [username, domain]
    case SSL => [domain]
    case HTTP => [username, password, domain]
    case Squid => [username, password]
    case UDP => [username, password]
    case Dropbear => [username, password]
  }

  /** The backends whose accounts log in with the user's password. */
  predicate TakesPassword(b: Backend)
  {
    b == SSH || b == HTTP || b == Squid || b == UDP || b == Dropbear
  }

  /** The backends that serve the per-account virtual host. */
  predicate TakesDomain(b: Backend)
  {
    b == WebSocket || b == SSL || b == HTTP
  }

  /** When the three inputs differ, the password reaches exactly the login
      backends, the domain exactly the virtual-host backends, and the
      username every backend but SSL; nothing else is ever passed. */
  lemma ArgumentsByBackend(b: Backend, username: string, password: string, domain: string)
    requires username != password && username != domain && password != domain
    ensures password in ProvisionArgs(b, username, password, domain) <==> TakesPassword(b)
    ensures domain in ProvisionArgs(b, username, password, domain) <==> TakesDomain(b)
    ensures username in ProvisionArgs(b, username, password, domain) <==> b != SSL
    ensures forall s :: s in ProvisionArgs(b, username, password, domain) ==>
      s == username || s == password || s == domain
  {
  }
}

=== FILE: expiry_sweep.dfy ===
/** What RemoveUser and the expiry sweep do to the account list, stated
    against the reference filters of module Accounts. */
module ExpirySweep {
  import opened Outcomes
  import opened Backends
  import opened Accounts
  import opened Subsequences
  import opened VpsManager

  /** With unique names, RemoveUser drops exactly the records carrying that
      name, whether or not one exists, and names stay unique. */
  lemma RemoveUserDropsName(m: Manager, username: string, env: Env)
    requires UniqueNames(m.users)
    ensures RemoveUser(m, username, env).users == WithoutNames(m.users, {username})
    ensures UniqueNames(RemoveUser(m, username, env).users)
  {
    match FindFirst(m.users, username)
    case None =>
      assert forall k :: 0 <= k < |m.users| ==> m.users[k].username == NamesOf(m.users)[k];
      NoneNamedIsUnchanged(m.users, username);
    case Some(i) =>
      RemoveFirstIsWithoutName(m.users, username, i);
      WithoutNamesKeepsUnique(m.users, {username});
  }

  /** What RemoveUser leaves behind and which calls it makes do not depend on
      what the backends and the save answer. */
  lemma RemoveUserIgnoresOutcomes(m: Manager, username: string, env1: Env, env2: Env)
    ensures RemoveUser(m, username, env1).users == RemoveUser(m, username, env2).users
    ensures RemoveUser(m, username, env1).calls == RemoveUser(m, username, env2).calls
  {
  }

  /** Removing a list of names one by one from a list with unique names
      drops exactly the records carrying one of them. */
  lemma {:induction false} RemoveEachDropsNames(m: Manager, names: seq<string>, envs: nat -> Env, next: nat)
    requires UniqueNames(m.users)
    ensures RemoveEach(m, names, envs, next).users == WithoutNames(m.users, NameSet(names))
    decreases |names|
  {
    if names == [] {
      assert NameSet(names) == {};
      WithoutNoNames(m.users);
    } else {
      var run := RemoveUser(m, names[0], envs(next));
      RemoveUserDropsName(m, names[0], envs(next));
      RemoveEachDropsNames(m.(users := run.users), names[1..], envs, next + 1);
      WithoutNamesTwice(m.users, {names[0]}, NameSet(names[1..]));
      NameSetCons(names);
    }
  }

  /** The names of a list are its head's name and the names of its tail. */
  lemma NameSetCons(names: seq<string>)
    requires names != []
    ensures {names[0]} + NameSet(names[1..]) == NameSet(names)
  {
    assert forall n :: n in names <==> n == names[0] || n in names[1..];
  }

  /** The sweep's effect on the list and its calls do not depend on what any
      removal returned: the sweep ignores RemoveUser's errors. */
  lemma {:induction false} SweepIgnoresOutcomes(m: Manager, names: seq<string>,
                                                 envs1: nat -> Env, next1: nat,
                                                 envs2: nat -> Env, next2: nat)
    ensures RemoveEach(m, names, envs1, next1).users == RemoveEach(m, names, envs2, next2).users
    ensures RemoveEach(m, names, envs1, next1).calls == RemoveEach(m, names, envs2, next2).calls
    decreases |names|
  {
    if names != [] {
      RemoveUserIgnoresOutcomes(m, names[0], envs1(next1), envs2(next2));
      var run := RemoveUser(m, names[0], envs1(next1));
      SweepIgnoresOutcomes(m.(users := run.users), names[1..], envs1, next1 + 1, envs2, next2 + 1);
    }
  }

  /** The expired names are collected in list order. */
  lemma {:induction false} ExpiredInListOrder(users: seq<User>, now: Time)
    ensures Subsequence(ExpiredNames(users, now), NamesOf(users))
    decreases |users|
  {
    if users != [] {
      ExpiredInListOrder(users[1..], now);
      var names := NamesOf(users);
      assert names[1..] == NamesOf(users[1..]);
      var picked := ExpiredNames(users, now);
      if now > users[0].expireDate {
        assert picked[0] == names[0];
        assert picked[1..] == ExpiredNames(users[1..], now);
      } else {
        assert picked == ExpiredNames(users[1..], now);
      }
    }
  }

  /** With unique names, the sweep leaves exactly the records whose expiry is
      not before `now`. */
  lemma SweepKeepsUnexpired(m: Manager, now: Time, envs: nat -> Env)
    requires UniqueNames(m.users)
    ensures CheckExpiredUsers(m, now, envs).users == Unexpired(m.users, now)
    ensures UniqueNames(CheckExpiredUsers(m, now, envs).users)
  {
    RemoveEachDropsNames(m, ExpiredNames(m.users, now), envs, 0);
    WithoutExpiredIsUnexpired(m.users, now);
    WithoutNamesKeepsUnique(m.users, NameSet(ExpiredNames(m.users, now)));
  }

  /** Nothing left by a sweep is expired at the same instant. */
  lemma {:induction false} NothingExpiredAfterSweep(users: seq<User>, now: Time)
    ensures ExpiredNames(Unexpired(users, now), now) == []
    decreases |users|
  {
    if users != [] {
      NothingExpiredAfterSweep(users[1..], now);
      var head := if now > users[0].expireDate then [] else [users[0]];
      assert Unexpired(users, now) == head + Unexpired(users[1..], now);
      ExpiredNamesAppend(head, Unexpired(users[1..], now), now);
    }
  }

  /** With unique names, a second sweep at the same instant attempts nothing,
      calls nothing and changes nothing. */
  lemma SweepTwiceIsNoop(m: Manager, now: Time, envs1: nat -> Env, envs2: nat -> Env)
    requires UniqueNames(m.users)
    ensures var once := CheckExpiredUsers(m, now, envs1);
      var twice := CheckExpiredUsers(m.(users := once.users), now, envs2);
      twice.users == once.users && twice.calls == [] && twice.attempted == []
  {
    SweepKeepsUnexpired(m, now, envs1);
    NothingExpiredAfterSweep(m.users, now);
  }

  // ---------------------------------------------------------------------------
  // The sweep's calls

  /** No name occurs twice. */
  ghost predicate DistinctNames(names: seq<string>)
  {
    forall i, j :: 0 <= i < j < |names| ==> names[i] != names[j]
  }

  /** `calls` is, for each name of `names` in order, the eight teardowns of
      cleanup followed by a save of the list with every name up to and
      including that one removed: nine calls per name. */
  ghost predicate SweepTrace(calls: seq<Call>, users: seq<User>, names: seq<string>)
  {
    && |calls| == 9 * |names|
    && forall i :: 0 <= i < |names| ==>
         calls[9 * i..9 * i + 9] == Cleanup(names[i]) + [Save(WithoutNames(users, NameSet(names[..i + 1])))]
  }

  /** A name that is present and not removed stays present. */
  lemma NameSurvives(users: seq<User>, n: string, gone: set<string>)
    requires n in NamesOf(users) && n !in gone
    ensures n in NamesOf(WithoutNames(users, gone))
  {
    var k :| 0 <= k < |users| && NamesOf(users)[k] == n;
    var r := WithoutNames(users, gone);
    assert users[k] in r;
    var j :| 0 <= j < |r| && r[j] == users[k];
    assert NamesOf(r)[j] == n;
  }

  /** The names up to position `i` are the first name and the names of the
      tail up to position `i - 1`. */
  lemma PrefixNameSet(names: seq<string>, i: nat)
    requires 0 < i < |names|
    ensures {names[0]} + NameSet(names[1..][..i]) == NameSet(names[..i + 1])
  {
    assert names[..i + 1] == [names[0]] + names[1..][..i];
  }

  /** One removal's nine calls in front of the trace of the rest of the
      sweep, taken on the list that removal left, give the trace of the
      whole sweep. */
  lemma TraceCons(users: seq<User>, names: seq<string>, first: seq<Call>, rest: seq<Call>)
    requires names != []
    requires first == Cleanup(names[0]) + [Save(WithoutNames(users, {names[0]}))]
    requires SweepTrace(rest, WithoutNames(users, {names[0]}), names[1..])
    ensures SweepTrace(first + rest, users, names)
  {
    var after := WithoutNames(users, {names[0]});
    var calls := first + rest;
    assert |first| == 9;
    forall i | 0 <= i < |names|
      ensures calls[9 * i..9 * i + 9]
              == Cleanup(names[i]) + [Save(WithoutNames(users, NameSet(names[..i + 1])))]
    {
      if i == 0 {
        assert calls[0..9] == first;
        assert NameSet(names[..1]) == {names[0]} by {
          assert names[..1] == [names[0]];
        }
      } else {
        LaterBlock(users, names, first, rest, i);
      }
    }
  }

  /** Block `i > 0` of the whole sweep is block `i - 1` of the rest. */
  lemma LaterBlock(users: seq<User>, names: seq<string>, first: seq<Call>, rest: seq<Call>, i: nat)
    requires 0 < i < |names| && |first| == 9
    requires SweepTrace(rest, WithoutNames(users, {names[0]}), names[1..])
    ensures (first + rest)[9 * i..9 * i + 9]
            == Cleanup(names[i]) + [Save(WithoutNames(users, NameSet(names[..i + 1])))]
  {
    var after := WithoutNames(users, {names[0]});
    var tail := names[1..];
    assert rest[9 * (i - 1)..9 * (i - 1) + 9]
           == Cleanup(tail[i - 1]) + [Save(WithoutNames(after, NameSet(tail[..i])))];
    SliceAfter(first, rest, 9 * i, 9 * i + 9);
    WithoutNamesTwice(users, {names[0]}, NameSet(tail[..i]));
    PrefixNameSet(names, i);
  }

  /** A slice lying wholly in the second part of a concatenation. */
  lemma SliceAfter<T>(a: seq<T>, b: seq<T>, lo: nat, hi: nat)
    requires |a| <= lo <= hi <= |a| + |b|
    ensures (a + b)[lo..hi] == b[lo - |a|..hi - |a|]
  {
  }

  /** Removing distinct names that are all present, from a list with unique
      names, makes each removal's nine calls in turn. */
  lemma {:induction false} RemoveEachTrace(m: Manager, names: seq<string>, envs: nat -> Env, next: nat)
    requires UniqueNames(m.users) && DistinctNames(names)
    requires forall n :: n in names ==> n in NamesOf(m.users)
    ensures SweepTrace(RemoveEach(m, names, envs, next).calls, m.users, names)
    decreases |names|
  {
    if names != [] {
      var run := RemoveUser(m, names[0], envs(next));
      RemoveUserDropsName(m, names[0], envs(next));
      forall n | n in names[1..]
        ensures n in NamesOf(run.users)
      {
        NameSurvives(m.users, n, {names[0]});
      }
      RemoveEachTrace(m.(users := run.users), names[1..], envs, next + 1);
      var rest := RemoveEach(m.(users := run.users), names[1..], envs, next + 1);
      TraceCons(m.users, names, run.calls, rest.calls);
    }
  }

  /** With unique names in the list, the expired names are distinct. */
  lemma {:induction false} ExpiredNamesDistinct(users: seq<User>, now: Time)
    requires UniqueNames(users)
    ensures DistinctNames(ExpiredNames(users, now))
    decreases |users|
  {
    if users != [] {
      var tail := users[1..];
      assert UniqueNames(tail) by {
        forall i, j | 0 <= i < j < |tail| ensures tail[i].username != tail[j].username {
          assert tail[i] == users[i + 1] && tail[j] == users[j + 1];
        }
      }
      ExpiredNamesDistinct(tail, now);
      var rest := ExpiredNames(tail, now);
      if now > users[0].expireDate {
        assert users[0].username !in rest;
        var all := ExpiredNames(users, now);
        assert all == [users[0].username] + rest;
        forall i, j | 0 <= i < j < |all| ensures all[i] != all[j] {
          assert all[j] == rest[j - 1];
          if i > 0 {
            assert all[i] == rest[i - 1];
          }
        }
      }
    }
  }

  /** Every expired name is a name in the list. */
  lemma ExpiredArePresent(users: seq<User>, now: Time)
    ensures forall n :: n in ExpiredNames(users, now) ==> n in NamesOf(users)
  {
    forall n | n in ExpiredNames(users, now) ensures n in NamesOf(users) {
      var u :| u in users && u.username == n && now > u.expireDate;
      var k :| 0 <= k < |users| && users[k] == u;
      assert NamesOf(users)[k] == n;
    }
  }

  /** With unique names, the sweep's calls are, for each expired name in
      list order, cleanup's eight teardowns for that name and then a save of
      the list without the names removed so far, that one included. */
  lemma SweepCallTrace(m: Manager, now: Time, envs: nat -> Env)
    requires UniqueNames(m.users)
    ensures var r := CheckExpiredUsers(m, now, envs);
      SweepTrace(r.calls, m.users, r.attempted)
  {
    ExpiredNamesDistinct(m.users, now);
    ExpiredArePresent(m.users, now);
    RemoveEachTrace(m, ExpiredNames(m.users, now), envs, 0);
  }

  /** A record AddUser creates is collected by a sweep at the instant of its
      creation exactly when it was created with a negative day count, which
      AddUser never rejects. */
  lemma NewRecordSweptOnlyIfBackdated(username: string, digest: string, expireDays: int, now: Time)
    ensures ExpiredNames([NewUser(username, digest, expireDays, now)], now)
            == (if expireDays < 0 then [username] else [])
  {
    var u := NewUser(username, digest, expireDays, now);
    assert [u][1..] == [];
  }
}

=== FILE: findings.dfy ===
/** Two places where AddUser as written does not keep the promises the rest
    of the manager relies on, each shown on the as-written model and
    repaired in a corrected definition. */
module Findings {
  import opened Outcomes
  import opened Backends
  import opened Accounts
  import opened VpsManager
  import opened AddUserFacts

  // ---------------------------------------------------------------------------
  // 1. AddUser never checks for an existing username.
  //
  // With the real SSH backend a second add of a live account normally stops
  // at step 1, because `useradd` (protocols/ssh.go:21) refuses a name the
  // system already has, and an add that gets past step 1 is refused again at
  // step 8 by Dropbear's own `useradd` (protocols/dropbear.go:23), after which
  // cleanup runs and no record is appended. Two records with one name
  // therefore come from a list loaded from disk with duplicates (loadFromFile,
  // vps_manager.go:246-256, takes whatever the file holds). The model's
  // backends answer independently, so it reaches the duplicate through
  // AddUser directly.

  /** Adding a name that is already registered, with every step succeeding,
      leaves two records with that name. */
  lemma AddUserAdmitsDuplicate(m: Manager, username: string, password: string,
                               expireDays: int, now: Time, env: Env)
    requires username in NamesOf(m.users)
    requires env.hash.Hashed? && AllProvisioned(env)
    ensures !UniqueNames(AddUser(m, username, password, expireDays, now, env).users)
  {
    var users := AddUser(m, username, password, expireDays, now, env).users;
    var i :| 0 <= i < |m.users| && NamesOf(m.users)[i] == username;
    assert users[i].username == users[|m.users|].username;
  }

  /** The sweep then removes the wrong record: with a live "alice" first and
      an expired "alice" second, the sweep at 50 collects "alice", and
      RemoveUser drops the first match, which is the live one. */
  lemma SweepDropsLiveDuplicate(envs: nat -> Env)
    ensures var live := User("alice", "h1", 100, ProtocolNames);
      var stale := User("alice", "h0", 0, ProtocolNames);
      && CheckExpiredUsers(Manager([live, stale], "example.com"), 50, envs).users == [stale]
      && Unexpired([live, stale], 50) == [live]
  {
    var live := User("alice", "h1", 100, ProtocolNames);
    var stale := User("alice", "h0", 0, ProtocolNames);
    var m := Manager([live, stale], "example.com");
    var names := ExpiredNames([live, stale], 50);
    assert names == ["alice"] by {
      assert ExpiredNames([stale], 50) == ["alice"] by {
        assert [stale][1..] == [];
      }
      assert [live, stale][1..] == [stale];
    }
    assert FindFirst(m.users, "alice") == Some(0);
    var run := RemoveUser(m, "alice", envs(0));
    assert run.users == [stale] by {
      assert RemoveAt(m.users, 0) == [stale];
    }
    assert names[1..] == [];
    var rest := RemoveEach(m.(users := run.users), names[1..], envs, 1);
    assert rest.users == [stale];
    assert Unexpired([live, stale], 50) == [live] by {
      assert Unexpired([stale], 50) == [] by {
        assert [stale][1..] == [];
      }
      assert [live, stale][1..] == [stale];
    }
  }

  /** And a second sweep at the same instant attempts "alice" again, this
      time removing the expired record: with duplicate names the sweep is
      not idempotent, so SweepTwiceIsNoop needs its unique-names
      requirement. */
  lemma SecondSweepRepeats(envs1: nat -> Env, envs2: nat -> Env)
    ensures var live := User("alice", "h1", 100, ProtocolNames);
      var stale := User("alice", "h0", 0, ProtocolNames);
      var m := Manager([live, stale], "example.com");
      var once := CheckExpiredUsers(m, 50, envs1);
      var twice := CheckExpiredUsers(m.(users := once.users), 50, envs2);
      && once.attempted == ["alice"] && twice.attempted == ["alice"]
      && twice.users == []
  {
    var live := User("alice", "h1", 100, ProtocolNames);
    var stale := User("alice", "h0", 0, ProtocolNames);
    var m := Manager([live, stale], "example.com");
    SweepDropsLiveDuplicate(envs1);
    assert ExpiredNames([stale], 50) == ["alice"] by {
      assert [stale][1..] == [];
    }
    var m2 := m.(users := [stale]);
    assert FindFirst(m2.users, "alice") == Some(0);
    var run := RemoveUser(m2, "alice", envs2(0));
    assert run.users == [] by {
      assert RemoveAt(m2.users, 0) == [];
    }
    assert ["alice"][1..] == [];
  }

  /** AddUser with the missing check: a registered name is refused before
      anything else happens; otherwise AddUser runs, with the repaired
      compensation of finding 2. Names stay unique. */
  function AddUserUnique(m: Manager, username: string, password: string,
                         expireDays: int, now: Time, env: Env): (r: Run)
    ensures username in NamesOf(m.users) ==> r == Run(m.users, [], Err(DuplicateIdentity))
    ensures UniqueNames(m.users) ==> UniqueNames(r.users)
    ensures r.status.Ok? ==> username !in NamesOf(m.users) && username in NamesOf(r.users)
  {
    if username in NamesOf(m.users) then Run(m.users, [], Err(DuplicateIdentity))
    else
      var r := AddUserWith(Repaired, m, username, password, expireDays, now, env);
      assert forall j :: 0 <= j < |m.users| ==> m.users[j].username == NamesOf(m.users)[j];
      assert r.status.Ok? ==> NamesOf(r.users)[|m.users|] == username;
      r
  }

  /** Adding a name twice in a row: the second add is refused and the list
      keeps exactly one record with that name. */
  lemma SecondAddIsRefused(m: Manager, username: string, password: string,
                           expireDays: int, now: Time, env: Env, env2: Env)
    requires UniqueNames(m.users)
    requires AddUserUnique(m, username, password, expireDays, now, env).status.Ok?
    ensures var first := AddUserUnique(m, username, password, expireDays, now, env);
      var second := AddUserUnique(m.(users := first.users), username, password, expireDays, now, env2);
      && second.status == Err(DuplicateIdentity)
      && second.users == first.users
      && UniqueNames(second.users)
  {
  }

  // ---------------------------------------------------------------------------
  // 2. An SSL failure leaves the WebSocket configuration behind.

  /** As written, when certificate generation fails the WebSocket
      configuration created one step earlier is never removed. */
  lemma SslFailureLeavesWebSocket(m: Manager, username: string, password: string,
                                  expireDays: int, now: Time, env: Env)
    requires env.hash.Hashed? && env.provision(SSH).Ok? && env.provision(Xray).Ok?
    requires env.provision(WebSocket).Ok? && env.provision(SSL).Err?
    ensures var calls := AddUser(m, username, password, expireDays, now, env).calls;
      && Provision(WebSocket, [username, Domain(username, m.domain)]) in calls
      && Deprovision(WebSocket, username) !in calls
  {
    SslFailureUndoesSshXray(m, username, password, expireDays, now, env);
    WebSocketNotInSslTrace(username, password, Domain(username, m.domain));
  }

  /** The SSL failure trace provisions WebSocket and never removes it. */
  lemma WebSocketNotInSslTrace(username: string, password: string, d: string)
    ensures var calls := [Provision(SSH, [username, password]), Provision(Xray, [username]),
                          Provision(WebSocket, [username, d]), Provision(SSL, [d]),
                          Deprovision(SSH, username), Deprovision(Xray, username)];
      Provision(WebSocket, [username, d]) in calls && Deprovision(WebSocket, username) !in calls
  {
  }

  /** The compensation table with the SSL row completed: an SSL failure also
      removes the WebSocket configuration. Every step that succeeded before
      the failing one is undone. */
  function Repaired(failed: Backend): (r: seq<Backend>)
    ensures forall j :: 0 <= j < Rank(failed) ==> Order[j] in r
  {
    if failed == SSL then [SSH, Xray, WebSocket] else AsWritten(failed)
  }

  /** With the repaired table, a failure at step `k` tears down every backend
      provisioned before it. */
  lemma RepairedUndoesEverything(m: Manager, username: string, password: string,
                                 expireDays: int, now: Time, env: Env, k: nat)
    requires env.hash.Hashed?
    requires FirstFailureAt(env.provision, k)
    ensures forall j :: 0 <= j < k ==>
      Deprovision(Order[j], username) in AddUserWith(Repaired, m, username, password, expireDays, now, env).calls
  {
    FirstFailureTrace(Repaired, m, username, password, expireDays, now, env, k);
    var r := AddUserWith(Repaired, m, username, password, expireDays, now, env);
    var attempts := ProvisionCalls(Order, username, password, Domain(username, m.domain))[..k + 1];
    var undone := Teardowns(Repaired(Order[k]), username);
    forall j | 0 <= j < k
      ensures Deprovision(Order[j], username) in r.calls
    {
      RankOfOrder(k);
      var t :| 0 <= t < |Repaired(Order[k])| && Repaired(Order[k])[t] == Order[j];
      assert r.calls[|attempts| + t] == undone[t];
    }
  }

  /** The as-written table misses exactly that: for an SSL failure the
      WebSocket step, which came before it, is not in the table. */
  lemma AsWrittenMissesWebSocket()
    ensures Rank(WebSocket) < Rank(SSL) && WebSocket !in AsWritten(SSL)
    ensures forall b: Backend :: b != SSL ==> AsWritten(b) == Repaired(b)
  {
  }
}

=== FILE: outcomes.dfy ===
/** Small success/failure datatypes standing in for Go's `(value, error)`
    returns and for optional values. */
module Outcomes {

  /** What a Go call returning only `error` gives back: nil (`Ok`) or an error. */
  datatype Status<+E> = Ok | Err(error: E)

  /** What a Go call returning `(T, error)` gives back. */
  datatype Result<+T, +E> = Value(value: T) | Fault(error: E)

  datatype Option<+T> = None | Some(value: T)
}

=== FILE: subsequences.dfy ===
/** "Appears in the same relative order": the subsequence relation on
    sequences, used to say that reported failures come in call order. */
module Subsequences {

  /** `a` is what is left of `b` after deleting some of its entries. */
  ghost predicate Subsequence<T>(a: seq<T>, b: seq<T>)
    decreases |b|
  {
    if a == [] then true
    else if b == [] then false
    else (a[0] == b[0] && Subsequence(a[1..], b[1..])) || Subsequence(a, b[1..])
  }

  /** Subsequences of the two halves give a subsequence of the whole. */
  lemma {:induction false} SubsequenceAppend<T>(a: seq<T>, b: seq<T>, c: seq<T>, d: seq<T>)
    requires Subsequence(a, b) && Subsequence(c, d)
    ensures Subsequence(a + c, b + d)
    decreases |b|
  {
    if b == [] {
      assert a == [];
      assert a + c == c && b + d == d;
    } else if a != [] && a[0] == b[0] && Subsequence(a[1..], b[1..]) {
      SubsequenceAppend(a[1..], b[1..], c, d);
      assert (a + c)[1..] == a[1..] + c;
      assert (b + d)[1..] == b[1..] + d;
    } else if a == [] {
      assert Subsequence(a, b[1..]);
      SubsequenceAppend(a, b[1..], c, d);
      assert (b + d)[1..] == b[1..] + d;
      SubsequenceDropFront(a + c, b + d);
    } else {
      SubsequenceAppend(a, b[1..], c, d);
      assert (b + d)[1..] == b[1..] + d;
    }
  }

  /** A subsequence of `b[1..]` is a subsequence of `b`. */
  lemma SubsequenceDropFront<T>(a: seq<T>, b: seq<T>)
    requires b != [] && Subsequence(a, b[1..])
    ensures Subsequence(a, b)
  {
  }

  /** Every sequence is a subsequence of itself. */
  lemma {:induction false} SubsequenceRefl<T>(a: seq<T>)
    ensures Subsequence(a, a)
    decreases |a|
  {
    if a != [] {
      SubsequenceRefl(a[1..]);
    }
  }
}

=== FILE: vps_manager.dfy ===
/** The account orchestrator of vps_manager.go: AddUser, RemoveUser, cleanup
    and CheckExpiredUsers, as pure functions of the manager's state and of the
    answers the outside world gives (backends, bcrypt, the save to disk). Each
    operation returns the new account list, the external calls it made in
    order, and what it returned. */
module VpsManager {
  import opened Outcomes
  import opened Backends
  import opened Accounts
  import opened Subsequences

  /** An external call the manager makes. */
  datatype Call =
    | Provision(backend: Backend, args: seq<string>)   // a backend's AddUser (SSL: GenerateCertificate)
    | Deprovision(backend: Backend, username: string)  // a backend's RemoveUser
    | Save(snapshot: seq<User>)                        // saveToFile, writing the whole list

  /** What bcrypt gives back for the password. */
  datatype Hashing = Hashed(digest: string) | HashFailed(cause: string)

  /** The outside world's answers to one operation: the hash, each backend's
      provisioning and teardown outcome, and the outcome of the save. */
  datatype Env = Env(
    hash: Hashing,
    provision: Backend -> Status<string>,
    deprovision: Backend -> Status<string>,
    save: Status<string>)

  /** A step whose failure RemoveUser reports. */
  datatype Step = Removing(backend: Backend) | Saving

  /** One entry of RemoveUser's error list, such as "SSH: <cause>". */
  datatype Failure = Failure(step: Step, cause: string)

  datatype Error =
    | HashError(cause: string)              // "failed to hash password: ..."
    | BackendError(cause: string)           // a provisioning step's own error, passed through
    | SaveError(cause: string)              // saveToFile's own error, passed through
    | UserNotFound                          // "user not found"
    | RemoveErrors(failures: seq<Failure>)  // "errors removing user: [...]"
    | DuplicateIdentity                     // only the corrected add of module Findings

  /** The part of the manager the operations read and write. */
  datatype Manager = Manager(users: seq<User>, domain: string)

  /** The outcome of one operation. */
  datatype Run = Run(users: seq<User>, calls: seq<Call>, status: Status<Error>)

  /** The outcome of one expiry sweep; `attempted` lists the names RemoveUser
      was called with, in order. */
  datatype Sweep = Sweep(users: seq<User>, calls: seq<Call>, attempted: seq<string>)

  /** Which backends to tear down when provisioning `failed` fails. */
  type Policy = Backend -> seq<Backend>

  // ---------------------------------------------------------------------------
  // Calls

  /** The provisioning calls for `bs`, in order. */
  function ProvisionCalls(bs: seq<Backend>, username: string, password: string, domain: string): (r: seq<Call>)
    ensures |r| == |bs|
    ensures forall i :: 0 <= i < |bs| ==> r[i] == Provision(bs[i], ProvisionArgs(bs[i], username, password, domain))
  {
    seq(|bs|, i requires 0 <= i < |bs| => Provision(bs[i], ProvisionArgs(bs[i], username, password, domain)))
  }

  /** The teardown calls for `bs`, in order. */
  function Teardowns(bs: seq<Backend>, username: string): (r: seq<Call>)
    ensures |r| == |bs|
    ensures forall i :: 0 <= i < |bs| ==> r[i] == Deprovision(bs[i], username)
  {
    seq(|bs|, i requires 0 <= i < |bs| => Deprovision(bs[i], username))
  }

  /** cleanup: tears down all eight backends in the fixed order, whether or
      not they were ever provisioned for `username`. */
  function Cleanup(username: string): (r: seq<Call>)
    ensures |r| == |Order|
    ensures forall i :: 0 <= i < |r| ==> r[i] == Deprovision(Order[i], username)
  {
    Teardowns(Order, username)
  }

  // ---------------------------------------------------------------------------
  // AddUser

  /** The compensation AddUser runs when provisioning `failed` fails: nothing
      for SSH, SSH for Xray, SSH then Xray for WebSocket and for SSL, and
      cleanup (all eight) for HTTP, Squid, UDP and Dropbear. */
  function AsWritten(failed: Backend): (r: seq<Backend>)
    // teardowns run in provisioning order, each backend at most once
    ensures forall i, j :: 0 <= i < j < |r| ==> Rank(r[i]) < Rank(r[j])
    // of the steps that succeeded, all are undone except WebSocket after an SSL failure
    ensures forall j :: 0 <= j < Rank(failed) ==>
      (Order[j] in r <==> !(failed == SSL && Order[j] == WebSocket))
    // the first four failures undo only earlier steps; the later four undo all eight
    ensures Rank(failed) < 4 ==> forall b :: b in r ==> Rank(b) < Rank(failed)
    ensures Rank(failed) >= 4 ==> forall b: Backend :: b in r
  {
    assert forall b: Backend :: b in Order by {
      forall b: Backend ensures b in Order { OrderIsComplete(b); }
    }
    match failed
    case SSH => []
    case Xray => [SSH]
    case WebSocket => [SSH, Xray]
    case SSL => [SSH, Xray]
    case HTTP => Order
    case Squid => Order
    case UDP => Order
    case Dropbear => Order
  }

  /** Runs the provisioning steps `bs[i..]` in turn, stopping at the first
      one that fails, and returns that step's position if there is one. */
  function FirstFailure(bs: seq<Backend>, i: nat, provision: Backend -> Status<string>): (r: Option<nat>)
    requires i <= |bs|
    decreases |bs| - i
    ensures r.None? <==> forall j :: i <= j < |bs| ==> provision(bs[j]).Ok?
    ensures r.Some? ==> i <= r.value < |bs| && provision(bs[r.value]).Err?
    ensures r.Some? ==> forall j :: i <= j < r.value ==> provision(bs[j]).Ok?
  {
    if i == |bs| then None
    else if provision(bs[i]).Err? then Some(i)
    else FirstFailure(bs, i + 1, provision)
  }

  /** Every backend accepts the new user. */
  predicate AllProvisioned(env: Env)
  {
    forall b: Backend :: env.provision(b).Ok?
  }

  /** The record AddUser appends once every step succeeded. */
  function NewUser(username: string, digest: string, expireDays: int, now: Time): (u: User)
    ensures u.username == username && u.password == digest
    // the expiry lies `expireDays` whole days after `now`, in the past when the count is negative
    ensures u.expireDate - now == expireDays * DaySeconds
    ensures u.expireDate >= now <==> expireDays >= 0
    // the fixed protocol list, one name per backend (ProtocolNamesCoverBackends)
    ensures u.protocols == ProtocolNames && |u.protocols| == |Order|
  {
    User(username, digest, now + expireDays * DaySeconds, ProtocolNames)
  }

  /** No call in `calls` is a save. */
  predicate NoSave(calls: seq<Call>)
  {
    forall i :: 0 <= i < |calls| ==> !calls[i].Save?
  }

  /** If every step of `Order` succeeds, every backend does. */
  lemma EveryStepIsEveryBackend(provision: Backend -> Status<string>)
    requires forall j :: 0 <= j < |Order| ==> provision(Order[j]).Ok?
    ensures forall b: Backend :: provision(b).Ok?
  {
    forall b: Backend ensures provision(b).Ok? {
      OrderAtRank(b);
    }
  }

  /** The calls of a failed add, the provisioning attempts up to step `k`
      and then teardowns, save nothing and tear down only `username`. */
  lemma CompensationCalls(all: seq<Call>, k: nat, bs: seq<Backend>, username: string)
    requires k < |all|
    requires forall i :: 0 <= i < |all| ==> all[i].Provision?
    ensures var calls := all[..k + 1] + Teardowns(bs, username);
      && NoSave(calls)
      && forall i :: 0 <= i < |calls| && calls[i].Deprovision? ==> calls[i].username == username
  {
    var calls := all[..k + 1] + Teardowns(bs, username);
    forall i | 0 <= i < |calls|
      ensures !calls[i].Save?
      ensures calls[i].Deprovision? ==> calls[i].username == username
    {
      if i > k {
        assert calls[i] == Teardowns(bs, username)[i - (k + 1)];
      } else {
        assert calls[i] == all[i];
      }
    }
  }

  /** AddUser with the compensation left as a parameter: hash, provision
      `Order` until a step fails, and either compensate and report that
      step's error, or append the new record and save. */
  function AddUserWith(undo: Policy, m: Manager, username: string, password: string,
                       expireDays: int, now: Time, env: Env): (r: Run)
    // bcrypt failing stops everything before any backend is touched
    ensures env.hash.HashFailed? ==> r == Run(m.users, [], Err(HashError(env.hash.cause)))
    // a failed backend step leaves the list alone and saves nothing
    ensures env.hash.Hashed? && !AllProvisioned(env) ==>
      && r.users == m.users
      && r.status.Err? && r.status.error.BackendError?
      && NoSave(r.calls)
    // only the new user's accounts are ever torn down
    ensures forall i :: 0 <= i < |r.calls| && r.calls[i].Deprovision? ==> r.calls[i].username == username
    // full success appends one record, saves the new list, and reports the
    // save's outcome; the record stays even when the save fails
    ensures env.hash.Hashed? && AllProvisioned(env) ==>
      && r.users == m.users + [NewUser(username, env.hash.digest, expireDays, now)]
      && r.calls == ProvisionCalls(Order, username, password, Domain(username, m.domain)) + [Save(r.users)]
      && (env.save.Ok? ==> r.status == Ok)
      && (env.save.Err? ==> r.status == Err(SaveError(env.save.error)))
  {
    match env.hash
    case HashFailed(cause) => Run(m.users, [], Err(HashError(cause)))
    case Hashed(digest) =>
      var all := ProvisionCalls(Order, username, password, Domain(username, m.domain));
      match FirstFailure(Order, 0, env.provision)
      case Some(k) =>
        var calls := all[..k + 1] + Teardowns(undo(Order[k]), username);
        CompensationCalls(all, k, undo(Order[k]), username);
        Run(m.users, calls, Err(BackendError(env.provision(Order[k]).error)))
      case None =>
        EveryStepIsEveryBackend(env.provision);
        var users := m.users + [NewUser(username, digest, expireDays, now)];
        Run(users, all + [Save(users)],
            match env.save
            case Ok => Ok
            case Err(cause) => Err(SaveError(cause)))
  }

  /** What an add promises whatever its compensation table: bcrypt failing
      touches nothing; the list changes exactly when bcrypt and all eight
      steps succeed, and then only by the new record at the end; a teardown
      only ever removes the new user's accounts after a failed step; and the
      list is saved only after a success, once, as the last call. */
  ghost predicate AddContract(r: Run, m: Manager, username: string, expireDays: int, now: Time, env: Env)
  {
    && (env.hash.HashFailed? ==> r.calls == [] && r.users == m.users && r.status.Err?)
    && (r.users != m.users <==> env.hash.Hashed? && AllProvisioned(env))
    && (r.users != m.users ==>
          env.hash.Hashed? && r.users == m.users + [NewUser(username, env.hash.digest, expireDays, now)])
    && (forall i :: 0 <= i < |r.calls| && r.calls[i].Deprovision? ==>
          && r.calls[i].username == username
          && r.users == m.users && r.status.Err? && r.status.error.BackendError?)
    && (forall i :: 0 <= i < |r.calls| && r.calls[i].Save? ==>
          i == |r.calls| - 1 && r.calls[i].snapshot == r.users && r.users != m.users)
  }

  /** Every compensation table keeps the add's contract. */
  lemma AddUserWithKeepsContract(undo: Policy, m: Manager, username: string, password: string,
                                 expireDays: int, now: Time, env: Env)
    ensures AddContract(AddUserWith(undo, m, username, password, expireDays, now, env),
                        m, username, expireDays, now, env)
  {
    var r := AddUserWith(undo, m, username, password, expireDays, now, env);
    if env.hash.Hashed? && AllProvisioned(env) {
      var u := NewUser(username, env.hash.digest, expireDays, now);
      assert |r.users| == |m.users| + 1;
      var attempts := ProvisionCalls(Order, username, password, Domain(username, m.domain));
      assert r.calls == attempts + [Save(r.users)];
      forall i | 0 <= i < |r.calls|
        ensures !r.calls[i].Deprovision?
        ensures r.calls[i].Save? ==> i == |r.calls| - 1
      {
        if i < |attempts| {
          assert r.calls[i] == attempts[i];
        }
      }
    }
  }

  /** AddUser as the source writes it, with the compensation table
      `AsWritten`. */
  function AddUser(m: Manager, username: string, password: string, expireDays: int,
                   now: Time, env: Env): (r: Run)
    ensures AddContract(r, m, username, expireDays, now, env)
  {
    AddUserWithKeepsContract(AsWritten, m, username, password, expireDays, now, env);
    AddUserWith(AsWritten, m, username, password, expireDays, now, env)
  }

  // ---------------------------------------------------------------------------
  // RemoveUser

  /** The steps of `bs`'s teardowns, in order. */
  function RemovingSteps(bs: seq<Backend>): (r: seq<Step>)
    ensures |r| == |bs|
    ensures forall i :: 0 <= i < |bs| ==> r[i] == Removing(bs[i])
  {
    seq(|bs|, i requires 0 <= i < |bs| => Removing(bs[i]))
  }

  /** The steps RemoveUser performs once the user is found, in call order:
      the eight teardowns, then the save. */
  const RemovalSteps: seq<Step> := RemovingSteps(Order) + [Saving]

  /** The steps of a list of failures, in order. */
  function StepsOf(r: seq<Failure>): (s: seq<Step>)
    ensures |s| == |r|
    ensures forall i :: 0 <= i < |r| ==> s[i] == r[i].step
  {
    seq(|r|, i requires 0 <= i < |r| => r[i].step)
  }

  /** The failures among the teardowns of `bs`, in call order. */
  function CollectFailures(bs: seq<Backend>, deprovision: Backend -> Status<string>): (r: seq<Failure>)
    ensures |r| <= |bs|
  {
    if bs == [] then []
    else
      var rest := CollectFailures(bs[1..], deprovision);
      match deprovision(bs[0])
      case Ok => rest
      case Err(cause) => [Failure(Removing(bs[0]), cause)] + rest
  }

  /** Each entry of `r` is a teardown of `bs` that failed, with its cause. */
  ghost predicate FailedTeardowns(r: seq<Failure>, bs: seq<Backend>, deprovision: Backend -> Status<string>)
  {
    forall k :: 0 <= k < |r| ==>
      && r[k].step.Removing? && r[k].step.backend in bs
      && deprovision(r[k].step.backend) == Err(r[k].cause)
  }

  /** Every teardown of `bs` that failed has its entry in `r`. */
  ghost predicate CoversFailures(r: seq<Failure>, bs: seq<Backend>, deprovision: Backend -> Status<string>)
  {
    forall b :: b in bs && deprovision(b).Err? ==> Failure(Removing(b), deprovision(b).error) in r
  }

  /** The entry for the first teardown of `bs`, if it failed. */
  function HeadFailure(bs: seq<Backend>, deprovision: Backend -> Status<string>): seq<Failure>
    requires bs != []
  {
    if deprovision(bs[0]).Err? then [Failure(Removing(bs[0]), deprovision(bs[0]).error)] else []
  }

  /** CollectFailures puts the first teardown's entry in front of the
      failures of the rest. */
  lemma CollectFailuresCons(bs: seq<Backend>, deprovision: Backend -> Status<string>)
    requires bs != []
    ensures CollectFailures(bs, deprovision) == HeadFailure(bs, deprovision) + CollectFailures(bs[1..], deprovision)
  {
  }

  /** Only failed teardowns are collected, each with its own cause. */
  lemma {:induction false} CollectedAreFailures(bs: seq<Backend>, deprovision: Backend -> Status<string>)
    ensures FailedTeardowns(CollectFailures(bs, deprovision), bs, deprovision)
  {
    if bs != [] {
      CollectedAreFailures(bs[1..], deprovision);
      var rest := CollectFailures(bs[1..], deprovision);
      var r := CollectFailures(bs, deprovision);
      CollectFailuresCons(bs, deprovision);
      var head := HeadFailure(bs, deprovision);
      forall k | 0 <= k < |r|
        ensures r[k].step.Removing? && r[k].step.backend in bs
        ensures deprovision(r[k].step.backend) == Err(r[k].cause)
      {
        if k < |head| {
          assert r[k] == head[k];
        } else {
          assert r[k] == rest[k - |head|];
          assert rest[k - |head|].step.backend in bs[1..];
        }
      }
    }
  }

  /** No failed teardown is missed. */
  lemma {:induction false} FailuresAreCollected(bs: seq<Backend>, deprovision: Backend -> Status<string>)
    ensures CoversFailures(CollectFailures(bs, deprovision), bs, deprovision)
  {
    if bs != [] {
      FailuresAreCollected(bs[1..], deprovision);
      CollectFailuresCons(bs, deprovision);
      assert forall x :: x in bs ==> x == bs[0] || x in bs[1..];
    }
  }

  /** The collected failures come in the order their teardowns are called. */
  lemma {:induction false} CollectedInOrder(bs: seq<Backend>, deprovision: Backend -> Status<string>)
    ensures Subsequence(StepsOf(CollectFailures(bs, deprovision)), RemovingSteps(bs))
  {
    if bs != [] {
      CollectedInOrder(bs[1..], deprovision);
      var steps := StepsOf(CollectFailures(bs, deprovision));
      var rest := StepsOf(CollectFailures(bs[1..], deprovision));
      var all := RemovingSteps(bs);
      assert all[1..] == RemovingSteps(bs[1..]);
      CollectFailuresCons(bs, deprovision);
      var head := HeadFailure(bs, deprovision);
      if head == [] {
        assert steps == rest;
      } else {
        assert steps[0] == all[0];
        assert steps[1..] == rest;
      }
    }
  }

  /** `failures` lists exactly the failing steps of a removal, each with its
      cause, in call order. */
  ghost predicate ReportsEveryFailure(failures: seq<Failure>, env: Env)
  {
    && (forall f :: f in failures ==>
          match f.step
          case Removing(b) => env.deprovision(b) == Err(f.cause)
          case Saving => env.save == Err(f.cause))
    && (forall b: Backend :: env.deprovision(b).Err? ==>
          Failure(Removing(b), env.deprovision(b).error) in failures)
    && (env.save.Err? ==> Failure(Saving, env.save.error) in failures)
    && Subsequence(StepsOf(failures), RemovalSteps)
  }

  /** Every teardown and the save succeed. */
  predicate RemovalClean(env: Env)
  {
    (forall b: Backend :: env.deprovision(b).Ok?) && env.save.Ok?
  }

  /** The failures among RemoveUser's eight teardowns, in call order. */
  function TeardownFailures(env: Env): seq<Failure>
  {
    CollectFailures(Order, env.deprovision)
  }

  /** The save's entry in RemoveUser's error list, if it failed. */
  function SaveFailures(env: Env): seq<Failure>
  {
    match env.save
    case Ok => []
    case Err(cause) => [Failure(Saving, cause)]
  }

  /** The error list RemoveUser builds: the failing teardowns in call order,
      then the save if it failed. It is empty exactly when nothing failed. */
  function RemovalFailures(env: Env): (r: seq<Failure>)
    ensures ReportsEveryFailure(r, env)
    ensures |r| == 0 <==> RemovalClean(env)
  {
    var r := TeardownFailures(env) + SaveFailures(env);
    FailuresAreCauses(env);
    FailuresAreComplete(env);
    FailuresInCallOrder(env);
    r
  }

  lemma FailuresAreCauses(env: Env)
    ensures forall f :: f in TeardownFailures(env) + SaveFailures(env) ==>
      match f.step
      case Removing(b) => env.deprovision(b) == Err(f.cause)
      case Saving => env.save == Err(f.cause)
  {
    var tf := TeardownFailures(env);
    CollectedAreFailures(Order, env.deprovision);
    forall f | f in tf + SaveFailures(env)
      ensures match f.step
              case Removing(b) => env.deprovision(b) == Err(f.cause)
              case Saving => env.save == Err(f.cause)
    {
      if f in tf {
        var k :| 0 <= k < |tf| && tf[k] == f;
      }
    }
  }

  lemma FailuresAreComplete(env: Env)
    ensures forall b: Backend :: env.deprovision(b).Err? ==>
      Failure(Removing(b), env.deprovision(b).error) in TeardownFailures(env) + SaveFailures(env)
    ensures env.save.Err? ==> Failure(Saving, env.save.error) in TeardownFailures(env) + SaveFailures(env)
    ensures |TeardownFailures(env) + SaveFailures(env)| == 0 <==> RemovalClean(env)
  {
    var tf := TeardownFailures(env);
    CollectedAreFailures(Order, env.deprovision);
    FailuresAreCollected(Order, env.deprovision);
    forall b: Backend | env.deprovision(b).Err?
      ensures Failure(Removing(b), env.deprovision(b).error) in tf
    {
      OrderAtRank(b);
    }
    if |tf| > 0 {
      assert env.deprovision(tf[0].step.backend).Err?;
    }
    if !RemovalClean(env) && env.save.Ok? {
      var b :| env.deprovision(b).Err?;
      assert Failure(Removing(b), env.deprovision(b).error) in tf;
    }
  }

  lemma FailuresInCallOrder(env: Env)
    ensures Subsequence(StepsOf(TeardownFailures(env) + SaveFailures(env)), RemovalSteps)
  {
    var tf := TeardownFailures(env);
    CollectedInOrder(Order, env.deprovision);
    assert StepsOf(tf + SaveFailures(env)) == StepsOf(tf) + StepsOf(SaveFailures(env));
    SubsequenceRefl([Saving]);
    SubsequenceAppend(StepsOf(tf), RemovingSteps(Order), StepsOf(SaveFailures(env)), [Saving]);
  }

  /** RemoveUser as the source writes it: drop the first record with that
      name, attempt all eight teardowns and the save whatever fails, and
      report every failure. */
  function RemoveUser(m: Manager, username: string, env: Env): (r: Run)
    ensures FindFirst(m.users, username).None? ==> r == Run(m.users, [], Err(UserNotFound))
    ensures FindFirst(m.users, username).Some? ==>
      && r.users == RemoveAt(m.users, FindFirst(m.users, username).value)
      && r.calls == Cleanup(username) + [Save(r.users)]
      && r.status == (if RemovalClean(env) then Ok else Err(RemoveErrors(RemovalFailures(env))))
  {
    match FindFirst(m.users, username)
    case None => Run(m.users, [], Err(UserNotFound))
    case Some(i) =>
      var users := RemoveAt(m.users, i);
      var failures := RemovalFailures(env);
      Run(users, Cleanup(username) + [Save(users)],
          if |failures| > 0 then Err(RemoveErrors(failures)) else Ok)
  }

  // ---------------------------------------------------------------------------
  // CheckExpiredUsers

  /** Calls RemoveUser for each name in turn, ignoring what it returns; the
      `n`-th removal of the sweep sees the answers `envs(n)`. */
  function RemoveEach(m: Manager, names: seq<string>, envs: nat -> Env, next: nat): (r: Sweep)
    decreases |names|
    ensures r.attempted == names
    ensures |r.users| <= |m.users|
    ensures |r.users| >= |m.users| - |names|
  {
    if names == [] then Sweep(m.users, [], [])
    else
      var run := RemoveUser(m, names[0], envs(next));
      var rest := RemoveEach(m.(users := run.users), names[1..], envs, next + 1);
      Sweep(rest.users, run.calls + rest.calls, [names[0]] + rest.attempted)
  }

  /** CheckExpiredUsers: collect the names `now` is strictly after, then
      remove each. */
  function CheckExpiredUsers(m: Manager, now: Time, envs: nat -> Env): (r: Sweep)
    ensures forall n :: n in r.attempted <==>
      exists u :: u in m.users && u.username == n && now > u.expireDate
    ensures |r.users| >= |m.users| - |r.attempted|
  {
    RemoveEach(m, ExpiredNames(m.users, now), envs, 0)
  }
}

=== FILE: xray_clients.dfy ===
/** The Xray adapter's edit of the server configuration (protocols/xray.go):
    the inbound/client structure it reads, the client it appends to every
    vmess and vless inbound, the filter by email that removes it, and the
    load / write / restart steps around them. */
module XrayClients {
  import opened Outcomes
  import opened Subsequences

  /** One entry of an inbound's `settings.clients`. */
  datatype Client = Client(id: string, email: string)

  /** One entry of `inbounds`: its port, protocol and client list. */
  datatype Inbound = Inbound(port: int, protocol: string, clients: seq<Client>)

  /** The part of the configuration file the adapter reads and writes back. */
  datatype Config = Config(inbounds: seq<Inbound>)

  /** The protocols whose inbounds carry per-user clients. */
  predicate TakesClients(ib: Inbound)
  {
    ib.protocol == "vmess" || ib.protocol == "vless"
  }

  /** `b` has the inbounds of `a`, in the same order, on the same ports and
      protocols, and only the client lists of vmess and vless inbounds may
      differ. */
  ghost predicate SameShape(a: seq<Inbound>, b: seq<Inbound>)
  {
    && |a| == |b|
    && (forall i :: 0 <= i < |a| ==> b[i].port == a[i].port && b[i].protocol == a[i].protocol)
    && (forall i :: 0 <= i < |a| && !TakesClients(a[i]) ==> b[i] == a[i])
  }

  // ---------------------------------------------------------------------------
  // Client lists

  /** The clients of `cs` whose email is not `email`, in order. */
  function WithoutEmail(cs: seq<Client>, email: string): (r: seq<Client>)
    ensures |r| <= |cs|
    ensures forall c :: c in r <==> c in cs && c.email != email
  {
    if cs == [] then []
    else
      assert forall c :: c in cs <==> c == cs[0] || c in cs[1..];
      (if cs[0].email == email then [] else [cs[0]]) + WithoutEmail(cs[1..], email)
  }

  /** The kept clients stay in their original order. */
  lemma {:induction false} WithoutEmailInOrder(cs: seq<Client>, email: string)
    ensures Subsequence(WithoutEmail(cs, email), cs)
    decreases |cs|
  {
    if cs != [] {
      WithoutEmailInOrder(cs[1..], email);
      var r := WithoutEmail(cs, email);
      if cs[0].email == email {
        assert r == WithoutEmail(cs[1..], email);
      } else {
        assert r[0] == cs[0] && r[1..] == WithoutEmail(cs[1..], email);
      }
    }
  }

  /** Filtering distributes over concatenation. */
  lemma {:induction false} WithoutEmailAppend(a: seq<Client>, b: seq<Client>, email: string)
    ensures WithoutEmail(a + b, email) == WithoutEmail(a, email) + WithoutEmail(b, email)
    decreases |a|
  {
    if a == [] {
      assert a + b == b;
    } else {
      assert (a + b)[1..] == a[1..] + b;
      WithoutEmailAppend(a[1..], b, email);
    }
  }

  /** A list with no client of that email is left as it is. */
  lemma {:induction false} WithoutAbsentEmail(cs: seq<Client>, email: string)
    requires forall k :: 0 <= k < |cs| ==> cs[k].email != email
    ensures WithoutEmail(cs, email) == cs
    decreases |cs|
  {
    if cs != [] {
      WithoutAbsentEmail(cs[1..], email);
    }
  }

  /** Filtering twice by the same email is filtering once. */
  lemma WithoutEmailIdempotent(cs: seq<Client>, email: string)
    ensures WithoutEmail(WithoutEmail(cs, email), email) == WithoutEmail(cs, email)
  {
    var r := WithoutEmail(cs, email);
    assert forall k :: 0 <= k < |r| ==> r[k] in r;
    WithoutAbsentEmail(r, email);
  }

  // ---------------------------------------------------------------------------
  // Inbound lists

  /** The adding loop: append `c` to the clients of every vmess and vless
      inbound, leave every other inbound alone. */
  function AddToInbounds(ibs: seq<Inbound>, c: Client): (r: seq<Inbound>)
    ensures SameShape(ibs, r)
    ensures forall i :: 0 <= i < |ibs| && TakesClients(ibs[i]) ==> r[i].clients == ibs[i].clients + [c]
  {
    if ibs == [] then []
    else
      var ib := ibs[0];
      var head := if TakesClients(ib) then ib.(clients := ib.clients + [c]) else ib;
      [head] + AddToInbounds(ibs[1..], c)
  }

  /** The removing loop: filter the clients of every vmess and vless inbound
      by email, leave every other inbound alone. */
  function RemoveFromInbounds(ibs: seq<Inbound>, email: string): (r: seq<Inbound>)
    ensures SameShape(ibs, r)
    ensures forall i :: 0 <= i < |ibs| && TakesClients(ibs[i]) ==> r[i].clients == WithoutEmail(ibs[i].clients, email)
  {
    if ibs == [] then []
    else
      var ib := ibs[0];
      var head := if TakesClients(ib) then ib.(clients := WithoutEmail(ib.clients, email)) else ib;
      [head] + RemoveFromInbounds(ibs[1..], email)
  }

  /** The configuration with client `{id, email}` added to every vmess and
      vless inbound; the same `id` goes to each of them. */
  function AddClient(cfg: Config, id: string, email: string): (r: Config)
    ensures SameShape(cfg.inbounds, r.inbounds)
    ensures forall i :: 0 <= i < |cfg.inbounds| && TakesClients(cfg.inbounds[i]) ==>
      && |r.inbounds[i].clients| == |cfg.inbounds[i].clients| + 1
      && r.inbounds[i].clients[..|cfg.inbounds[i].clients|] == cfg.inbounds[i].clients
      && r.inbounds[i].clients[|cfg.inbounds[i].clients|] == Client(id, email)
  {
    var r := Config(AddToInbounds(cfg.inbounds, Client(id, email)));
    assert forall i :: 0 <= i < |cfg.inbounds| && TakesClients(cfg.inbounds[i]) ==>
      r.inbounds[i].clients[..|cfg.inbounds[i].clients|] == cfg.inbounds[i].clients;
    r
  }

  /** The configuration with every client of that email dropped from every
      vmess and vless inbound. */
  function RemoveClients(cfg: Config, email: string): (r: Config)
    ensures SameShape(cfg.inbounds, r.inbounds)
    ensures forall i :: 0 <= i < |cfg.inbounds| && TakesClients(cfg.inbounds[i]) ==>
      forall c :: c in r.inbounds[i].clients <==> c in cfg.inbounds[i].clients && c.email != email
    // each matching inbound keeps its other clients, in order and with their repeats
    ensures forall i :: 0 <= i < |cfg.inbounds| && TakesClients(cfg.inbounds[i]) ==>
      r.inbounds[i].clients == WithoutEmail(cfg.inbounds[i].clients, email)
  {
    Config(RemoveFromInbounds(cfg.inbounds, email))
  }

  /** Some vmess or vless inbound has a client with that email. */
  ghost predicate HasClient(cfg: Config, email: string)
  {
    exists i, k :: 0 <= i < |cfg.inbounds| && TakesClients(cfg.inbounds[i])
      && 0 <= k < |cfg.inbounds[i].clients| && cfg.inbounds[i].clients[k].email == email
  }

  /** Removal keeps the remaining clients of each inbound in their order. */
  lemma RemovalKeepsOrder(cfg: Config, email: string, i: nat)
    requires i < |cfg.inbounds| && TakesClients(cfg.inbounds[i])
    ensures Subsequence(RemoveClients(cfg, email).inbounds[i].clients, cfg.inbounds[i].clients)
  {
    WithoutEmailInOrder(cfg.inbounds[i].clients, email);
  }

  /** Two configurations with the same inbounds and client lists are equal. */
  lemma SameInbounds(a: Config, b: Config)
    requires SameShape(a.inbounds, b.inbounds)
    requires forall i :: 0 <= i < |a.inbounds| ==> b.inbounds[i].clients == a.inbounds[i].clients
    ensures a == b
  {
    assert a.inbounds == b.inbounds;
  }

  /** Removing is idempotent. */
  lemma RemoveClientsIdempotent(cfg: Config, email: string)
    ensures RemoveClients(RemoveClients(cfg, email), email) == RemoveClients(cfg, email)
  {
    var once := RemoveClients(cfg, email);
    var twice := RemoveClients(once, email);
    forall i | 0 <= i < |once.inbounds| && TakesClients(once.inbounds[i])
      ensures twice.inbounds[i].clients == once.inbounds[i].clients
    {
      WithoutEmailIdempotent(cfg.inbounds[i].clients, email);
    }
    SameInbounds(once, twice);
  }

  /** Removing an email right after adding it is the same as removing it from
      the original configuration. */
  lemma RemoveAfterAddIsRemove(cfg: Config, id: string, email: string)
    ensures RemoveClients(AddClient(cfg, id, email), email) == RemoveClients(cfg, email)
  {
    var added := Config(AddToInbounds(cfg.inbounds, Client(id, email)));
    var lhs := RemoveClients(added, email);
    var rhs := RemoveClients(cfg, email);
    forall i | 0 <= i < |cfg.inbounds| && TakesClients(cfg.inbounds[i])
      ensures lhs.inbounds[i].clients == rhs.inbounds[i].clients
    {
      WithoutEmailAppend(cfg.inbounds[i].clients, [Client(id, email)], email);
    }
    SameInbounds(rhs, lhs);
  }

  /** With no client of that email in a vmess or vless inbound, removing is
      a no-op. */
  lemma RemoveAbsentIsNoop(cfg: Config, email: string)
    requires !HasClient(cfg, email)
    ensures RemoveClients(cfg, email) == cfg
  {
    var r := RemoveClients(cfg, email);
    forall i | 0 <= i < |cfg.inbounds| && TakesClients(cfg.inbounds[i])
      ensures r.inbounds[i].clients == cfg.inbounds[i].clients
    {
      WithoutAbsentEmail(cfg.inbounds[i].clients, email);
    }
    SameInbounds(cfg, r);
  }

  /** If no vmess or vless inbound has a client with that email, removing it
      after adding it gives back the original configuration. */
  lemma RemoveAfterAdd(cfg: Config, id: string, email: string)
    requires !HasClient(cfg, email)
    ensures RemoveClients(AddClient(cfg, id, email), email) == cfg
  {
    RemoveAfterAddIsRemove(cfg, id, email);
    RemoveAbsentIsNoop(cfg, email);
  }

  // ---------------------------------------------------------------------------
  // The adapter's AddUser and RemoveUser

  /** The outside world's answers: reading and parsing the file, generating
      the uuid, writing the file, and restarting the service. */
  datatype XrayEnv = XrayEnv(
    load: Result<Config, string>,
    uuid: Result<string, string>,
    write: Status<string>,
    restart: Status<string>)

  /** A side effect of the adapter. */
  datatype Effect = WriteConfig(config: Config) | RestartService

  datatype XrayError =
    | LoadError(cause: string)     // "failed to read config" / "failed to parse config"
    | UuidError(cause: string)     // "failed to generate UUID"
    | WriteError(cause: string)    // "failed to marshal config" / "failed to write config"
    | RestartError(cause: string)  // "failed to restart xray service"

  /** What one adapter call did and returned. */
  datatype Outcome = Outcome(effects: seq<Effect>, status: Status<XrayError>)

  /** The adapter's AddUser: load, generate one uuid, add the client, write
      the file, restart the service. */
  function AddUser(username: string, env: XrayEnv): (r: Outcome)
    // a load or uuid failure returns before anything is written
    ensures env.load.Fault? ==> r == Outcome([], Err(LoadError(env.load.error)))
    ensures env.load.Value? && env.uuid.Fault? ==> r == Outcome([], Err(UuidError(env.uuid.error)))
    ensures env.load.Value? && env.uuid.Value? ==>
      var written := WriteConfig(AddClient(env.load.value, env.uuid.value, username));
      // a failed write returns before the restart
      && (env.write.Err? ==> r == Outcome([written], Err(WriteError(env.write.error))))
      // a failed restart is reported though the new file is already written
      && (env.write.Ok? ==> r.effects == [written, RestartService])
      && (env.write.Ok? && env.restart.Err? ==> r.status == Err(RestartError(env.restart.error)))
      && (env.write.Ok? && env.restart.Ok? ==> r.status == Ok)
  {
    match env.load
    case Fault(cause) => Outcome([], Err(LoadError(cause)))
    case Value(cfg) =>
      match env.uuid
      case Fault(cause) => Outcome([], Err(UuidError(cause)))
      case Value(id) =>
        var written := WriteConfig(AddClient(cfg, id, username));
        match env.write
        case Err(cause) => Outcome([written], Err(WriteError(cause)))
        case Ok =>
          Outcome([written, RestartService],
                  match env.restart
                  case Ok => Ok
                  case Err(cause) => Err(RestartError(cause)))
  }

  /** The adapter's RemoveUser: load, drop the clients, write the file. It
      never restarts the service. */
  function RemoveUser(username: string, env: XrayEnv): (r: Outcome)
    ensures env.load.Fault? ==> r == Outcome([], Err(LoadError(env.load.error)))
    ensures env.load.Value? ==> r.effects == [WriteConfig(RemoveClients(env.load.value, username))]
    ensures env.load.Value? ==> (r.status.Ok? <==> env.write.Ok?)
    ensures env.load.Value? && env.write.Err? ==> r.status == Err(WriteError(env.write.error))
    ensures RestartService !in r.effects
  {
    match env.load
    case Fault(cause) => Outcome([], Err(LoadError(cause)))
    case Value(cfg) =>
      Outcome([WriteConfig(RemoveClients(cfg, username))],
              match env.write
              case Ok => Ok
              case Err(cause) => Err(WriteError(cause)))
  }

  /** On the file: an AddUser whose write succeeded, followed by a RemoveUser
      that reads what was written, writes back the original configuration. */
  lemma RemoveUserUndoesAddUser(username: string, cfg: Config, add: XrayEnv, remove: XrayEnv)
    requires add.load == Value(cfg) && add.uuid.Value? && add.write.Ok?
    requires !HasClient(cfg, username)
    requires remove.load == Value(AddUser(username, add).effects[0].config)
    ensures RemoveUser(username, remove).effects == [WriteConfig(cfg)]
  {
    RemoveAfterAdd(cfg, add.uuid.value, username);
  }
}
